=== FILE: README.md ===
# vscode-automerge in Dafny

This project models the editor extension vscode-automerge. The extension
offers two conveniences, and the model covers the logic behind each:

- **Component scaffolding** (`src/components/JsxComponentGenerator.ts`, and
  the older `explorerContext` command in `src/extension.ts`):
  - an input box asks for a component name, checked by a validator;
  - the first letter of the name is upper-cased;
  - a folder of that name is created under the folder that was clicked;
  - the two template files are read, every `{templateName}` placeholder is
    replaced by the name, and the results are written into the new folder.
- **Automatic merging** (`src/components/GitBranchManager.ts`):
  - the extension reads the current branch and the output of `git branch -a`;
  - the user picks a branch and confirms;
  - a fixed chain of git commands runs. It merges the picked branch into
    `dev`, then `dev` into `sit`. Before each push, it checks the
    porcelain status for conflict codes. Finally it checks out the original
    branch again.

The model has seven modules:

| module | file | what it holds |
|---|---|---|
| `Host` | Host.dfy | `Option`, the notifications the editor shows (`Info`, `Warning`, `Error`), and `Exec`, the outcome of a shell command |
| `Text` | Text.dfy | the JavaScript string operations the code relies on: `trim` over the ECMAScript white-space set, ASCII `toUpperCase`, `includes`, `split` on one character, and `join` |
| `Placeholder` | Placeholder.dfy | `content.replace(new RegExp('{templateName}', 'g'), name)`, including the `$` patterns of `String.prototype.replace`, and the shipped JSX template |
| `ComponentGenerator` | ComponentGenerator.dfy | the validator, capitalisation, and `createComponent` as a plan of file-system effects over an abstract workspace |
| `GitOutput` | GitOutput.dfy | the parser of `git branch -a` and the conflict test on `git status --porcelain` |
| `MergeFlow` | MergeFlow.dfy | the merge chain as a plan of steps run against a git oracle, and `autoMergeBranch` with its early exits |
| `Extension` | Extension.dfy | `helloWorld`, `explorerContext`, and the commands `activate` registers |

How the outside world is represented:

- **Git.** Git is a function from the history of commands already issued and
  the next command to an `Exec`: either `Ok(stdout)` or `Failed(reason)`.
  The general lemmas of the merge flow hold for every such function. The
  `Cooperative*` lemmas and `SelfMergeIsNotRejected` exhibit one such function,
  a git that accepts everything, on which a run succeeds.
- **The file system.** It is a `Workspace` record with four parts:
  - the paths that exist;
  - the paths where `createDirectory` fails;
  - what `readFile` answers for each path;
  - the paths where `writeFile` fails.
  
  A command returns the calls it issued, the notifications it showed, and
  whether its promise rejected. A path is its list of segments, and
  `Uri.joinPath` is modelled by its posix join: it splits the fragment at `/`,
  drops empty pieces and `.`, and lets `..` remove the segment before it.
- **The user.** The input box, quick pick and modal dialog are parameters:
  - `None` is a dismissed box;
  - `Picked(i)` is a choice from the quick pick;
  - the modal's answer is the label of the button that was clicked.

Several behaviours of the code that a reader may not expect are modelled as
written:

- The branch chain is hard-coded as `dev`, then `sit`
  (`src/components/GitBranchManager.ts:130-134`).
- The progress notification is created with `cancellable: false`
  (`src/components/GitBranchManager.ts:121`), and no step of the flow commits.
- The quick pick offers every branch, the current one included
  (`src/components/GitBranchManager.ts:67-76`), and a pick of the current
  branch goes through the chain like any other.
- The checkout of the original branch (`src/components/GitBranchManager.ts:138`)
  runs only after both merges went through; a failed step skips it.
- The conflict test looks for `UU`, `AA` or `DD` anywhere in the status text
  (`src/components/GitBranchManager.ts:197`), not in the status columns.
- `createComponent` takes the folder name from the untrimmed input
  (`src/components/JsxComponentGenerator.ts:25-26`), while the validator trims.
- The older `explorerContext` command warns about a folder that already exists
  and then writes into it anyway (`src/extension.ts:25-37`).
- The older command hands an unvalidated name to `joinPath`
  (`src/extension.ts:23`), so `/`, `.` and `..` in it act as path syntax.
- `src/test/extension.test.ts:49` expects `extension.createJsxComponent`
  among the registered commands, but `activate` (`src/extension.ts:42`)
  registers only `extension.helloWorld` and `extension.explorerContext`.
  `Extension.ActivateOmitsGenerator` states what the code does.

Each of these points is stated as a lemma in the table below.

## Model

| member | source | states |
|---|---|---|
| Text.Trim | src/components/JsxComponentGenerator.ts:47 | `value.trim()` keeps a middle part of the text with only white space cut off either end, and the kept part neither starts nor ends with white space |
| Text.TrimEmptyIffBlank | src/components/JsxComponentGenerator.ts:47 | the trimmed text is empty exactly when every character is white space, which is when the validator reports an empty name |
| Text.TrimOfFramed | src/components/GitBranchManager.ts:58 | trimming white space, then a word, then white space gives back the word (e.g. `rev-parse` output with its trailing newline) |
| Text.ToUpper | src/components/JsxComponentGenerator.ts:62 | `toUpperCase` on the first character turns an ASCII lower-case letter into its capital and leaves other characters alone |
| Text.ContainsIffOccurs | src/components/GitBranchManager.ts:197 | `includes` is true exactly when the pattern occurs at some index |
| Text.Split | src/components/GitBranchManager.ts:88 | `split('\n')` yields at least one part, and no part contains the separator |
| Text.JoinSplit | src/components/GitBranchManager.ts:88 | joining the parts of a split with the separator gives back the original text |
| Text.SplitJoin | src/components/GitBranchManager.ts:88 | splitting a join of separator-free parts gives back those parts |
| Placeholder.Matches | src/components/JsxComponentGenerator.ts:116-118 | every position the global search reports is an occurrence of the pattern |
| Placeholder.MatchesIncreasing | src/components/JsxComponentGenerator.ts:116-118 | the search reports positions left to right, each at least the pattern's length past the previous one, because it resumes after each match |
| Placeholder.EveryOccurrenceIsMatched | src/components/JsxComponentGenerator.ts:117 | when the pattern's first character does not recur in it, every occurrence is reported by the global search |
| Placeholder.ReplaceAll | src/components/JsxComponentGenerator.ts:116-118 | text without the placeholder is returned unchanged |
| Placeholder.ReplaceAllLength | src/components/JsxComponentGenerator.ts:116-118 | each match trades the pattern's length for the replacement's |
| Placeholder.SubstituteLiteral | src/components/JsxComponentGenerator.ts:117 | a replacement string without `$` is inserted for a match exactly as it is |
| Placeholder.SubstitutePatterns | src/components/JsxComponentGenerator.ts:117 | in the replacement, `$$` gives `$`, `` $` `` the text before the match, `$'` the text after it, and `$` before any other character stays as typed |
| Placeholder.GlobalReplaceFromLiteral | src/components/JsxComponentGenerator.ts:117 | from any index on, the global replace with a `$`-free replacement equals the literal left-to-right replacement of the rest of the text |
| Placeholder.GlobalReplace | src/components/JsxComponentGenerator.ts:116-118 | with a replacement free of `$`, the host's `replace` with its `$` patterns is the literal replacement |
| Placeholder.MatchReferenceKeepsToken | src/components/JsxComponentGenerator.ts:117 | a replacement such as `$&` is not inserted literally: it puts the matched placeholder back |
| Placeholder.Pieces | src/components/JsxComponentGenerator.ts:116-118 | splitting at the matches gives one more piece than there are matches, and no piece contains the pattern |
| Placeholder.ReplaceIsJoinOfPieces | src/components/JsxComponentGenerator.ts:116-118 | the replacement keeps the text between matches and puts the name where each placeholder was |
| Placeholder.PiecesRoundTrip | src/components/JsxComponentGenerator.ts:116-118 | joining the pieces with the pattern gives back the original text |
| Placeholder.ReplaceByPatternIsIdentity | src/components/JsxComponentGenerator.ts:116-118 | replacing the placeholder by itself changes nothing |
| Placeholder.MatchesAreOccurrences | src/components/JsxComponentGenerator.ts:117 | since `{templateName}` cannot overlap itself, the global search finds every index where it occurs |
| Placeholder.ReplaceLength | src/components/JsxComponentGenerator.ts:117 | the rendered text is the template's length plus, for each occurrence, the name's length minus 14 |
| Placeholder.JoinedSeparatorCount | src/test/components/JsxComponentGenerator.edge.test.ts:270-271 | a text joined from n pieces by the name holds at least n - 1 matches of the name |
| Placeholder.InertPiecesTokenCount | src/components/JsxComponentGenerator.ts:116-118 | pieces in which no placeholder can start, joined by the placeholder, hold it exactly once per join |
| Placeholder.JsxTemplateTokenCount | template/jsx/index.jsx:1-15 | the shipped JSX template holds the placeholder exactly five times |
| Placeholder.RenderJsxTemplate | src/test/components/JsxComponentGenerator.edge.test.ts:266-271 | rendering the JSX template with a name free of `{` puts the name at the five sites, leaves no placeholder, and a search for the name finds it at least five times |
| Placeholder.RenderCssTestTemplate | src/test/testUtils.ts:194-198 | rendering the test suite's style template gives `.` followed by the name and the rule body, with no placeholder left |
| ComponentGenerator.NamePatternIsComponentName | src/components/JsxComponentGenerator.ts:50 | scanning with `^[a-zA-Z][a-zA-Z0-9]*$` accepts exactly the non-empty names that start with an ASCII letter and continue with ASCII letters and digits |
| ComponentGenerator.Validate | src/components/JsxComponentGenerator.ts:46-54 | blank input gives the empty-name message; otherwise the input is accepted when its trimmed form obeys the name rule and gets the format message when it does not |
| ComponentGenerator.ValidatorAcceptsIffTrimmedName | src/components/JsxComponentGenerator.ts:46-54 | the validator accepts exactly the inputs whose trimmed text obeys the name rule |
| ComponentGenerator.ValidatorAcceptsExamples | src/test/components/JsxComponentGenerator.test.ts:88-89 | `ValidName` and `A` are accepted |
| ComponentGenerator.ValidatorAcceptsDigits | src/test/testUtils.ts:147 | `Component123` is accepted |
| ComponentGenerator.ValidatorRejectsBlank | src/components/JsxComponentGenerator.ts:47-49 | `""` and `"   "` get the empty-name message |
| ComponentGenerator.ValidatorRejectsMalformed | src/test/components/JsxComponentGenerator.test.ts:79-83 | `123invalid` and `invalid-name` get the format message |
| ComponentGenerator.ValidatorRejectsInnerSpace | src/test/testUtils.ts:162 | `component name` gets the format message |
| ComponentGenerator.ValidatorRejectsNonAscii | src/test/testUtils.ts:165 | a name in Chinese characters gets the format message, because the letters of the rule are ASCII only |
| ComponentGenerator.AcceptedExample | src/components/JsxComponentGenerator.ts:46-54 | every word obeying the name rule is accepted as typed |
| ComponentGenerator.RejectedExample | src/components/JsxComponentGenerator.ts:50-52 | a word with no white space at its ends is rejected with the format message when its first character is not a letter or a later one is neither letter nor digit |
| ComponentGenerator.Capitalize | src/components/JsxComponentGenerator.ts:61-63 | capitalisation keeps the length, upper-cases the first character and leaves every other character in place |
| ComponentGenerator.CapitalizeIdempotent | src/components/JsxComponentGenerator.ts:61-63 | capitalising twice is capitalising once |
| ComponentGenerator.CapitalizeKeepsName | src/components/JsxComponentGenerator.ts:25 | a valid name stays valid, starts with a capital, and the rest is unchanged |
| ComponentGenerator.AcceptedInputIsPlain | src/components/JsxComponentGenerator.ts:25 | whatever the validator lets through becomes a non-empty folder name containing no `{` and no `$`, and it is one plain path segment: no `/`, and neither `.` nor `..` |
| ComponentGenerator.AcceptedFolderIsChild | src/components/JsxComponentGenerator.ts:25-26 | for an accepted name, `joinPath` puts the folder exactly one segment, the capitalised name, below the target |
| ComponentGenerator.GenerateFiles | src/components/JsxComponentGenerator.ts:83-111 | the writes are issued exactly when both templates can be read, and they are the two templates with every placeholder replaced by the name, written to `index.jsx` and `index.module.less`; the step succeeds exactly when both reads and both writes go through; otherwise it shows one error carrying the reason of the failing read (JSX first) or write, and rejects |
| ComponentGenerator.CreateComponent | src/components/JsxComponentGenerator.ts:18-37 | a cancelled or empty input does nothing; an existing folder gets exactly the warning `文件夹已存在: ` followed by the capitalised name, and no effect; a folder that cannot be created rejects with no notice; otherwise the folder is created first, followed, when both templates can be read, by exactly the two rendered files; an unreadable template leaves the folder, shows one error and rejects; the run succeeds exactly when every read and write goes through, and then shows one message naming the component |
| ComponentGenerator.AfterRun | src/components/JsxComponentGenerator.ts:68-78 | after a run, every directory and file whose call went through exists, nothing that existed before is lost, nothing else is added, and the rest of the workspace is unchanged |
| ComponentGenerator.JoinPath | src/extension.ts:23 | `Uri.joinPath` appends a plain segment as it is, maps `.` to the base itself, and maps `..` to the base without its last segment (the root stays the root) |
| ComponentGenerator.ResolveAppend | src/extension.ts:23 | resolving the pieces of a fragment in two runs, one after the other, gives the same path as resolving them together |
| ComponentGenerator.JoinPathIsNormal | src/extension.ts:23 | over a normalised base, `joinPath` yields only plain segments, whatever the fragment |
| ComponentGenerator.SlashNestsFolders | src/extension.ts:23 | a fragment `a/b` adds two nested segments |
| ComponentGenerator.DotsClimb | src/extension.ts:23 | in `a/../b` the `..` cancels the `a`, leaving one segment `b` |
| ComponentGenerator.OutputsDiffer | src/components/JsxComponentGenerator.ts:97-104 | the two files of a component are different paths |
| ComponentGenerator.SuccessLeavesComponent | src/components/JsxComponentGenerator.ts:18-37 | after a successful run the folder and both of its files exist |
| ComponentGenerator.CreateTwiceIsRejected | src/components/JsxComponentGenerator.ts:68-78 | running the command again after a run whose `createDirectory` went through gives exactly the folder-exists warning for the name and touches nothing |
| ComponentGenerator.ExistingFolderWarns | src/components/JsxComponentGenerator.ts:68-72 | for a folder that already exists, the one notice is a warning that contains `已存在` and the component's name |
| ComponentGenerator.FailedFolderIsRetried | src/components/JsxComponentGenerator.ts:68-78 | when `createDirectory` rejects, the folder is not recorded, and running the command again does exactly the same thing |
| ComponentGenerator.ValidInputRendersTemplate | src/components/JsxComponentGenerator.ts:83-106 | for a validated name and the shipped JSX template, the written JSX has the capitalised name at the five placeholder sites and no placeholder left, and the success message follows |
| ComponentGenerator.WriteFailureIsReported | src/components/JsxComponentGenerator.ts:97-110 | when either write fails, the folder and both rendered writes have still been issued, the error carries the failure reason (the JSX file's when both fail), and the promise rejects |
| ComponentGenerator.FolderUsesUntrimmedInput | src/components/JsxComponentGenerator.ts:25-26 | a valid name typed after a space is accepted, and the folder is the one segment below the target that keeps the space and the lower-case first letter |
| GitOutput.StripMarker | src/components/GitBranchManager.ts:89 | the result is the line with a front part removed; that part is empty, white space, or `*` followed by white space; something is removed exactly when the line starts with white space or with `*` and white space; and no white space is left in front, so the match is the longest one |
| GitOutput.Normalize | src/components/GitBranchManager.ts:89 | a line reduces to a suffix of itself, and a line with neither a marker nor the remote prefix in front is kept as it is |
| GitOutput.StripRemotePrefix | src/components/GitBranchManager.ts:89 | only a leading `remotes/origin/` is removed |
| GitOutput.MarkersCollapse | src/components/GitBranchManager.ts:89 | the current branch (`* b`), a local branch (`  b`) and its remote copy (`  remotes/origin/b`) all normalise to `b` |
| GitOutput.StarWithoutSpaceIsKept | src/components/GitBranchManager.ts:89 | a `*` not followed by white space stays part of the name |
| GitOutput.KeepAll | src/components/GitBranchManager.ts:90 | the filter keeps exactly the non-empty names that do not contain `HEAD`, each as many times as it occurs, and drops the rest entirely |
| GitOutput.KeepAllAppend | src/components/GitBranchManager.ts:90 | filtering a concatenation is concatenating the filtered parts, so the filter keeps the input's order |
| GitOutput.KeepAllKeepsOrder | src/components/GitBranchManager.ts:90 | two kept names come out of the filter in the order they first occur in its input |
| GitOutput.IndexOf | src/components/GitBranchManager.ts:91 | `indexOf` gives the first index of the name, or -1 exactly when the name is absent |
| GitOutput.FirstOccurrences | src/components/GitBranchManager.ts:91 | de-duplication keeps the same set of names, without repeats, in the order of their first occurrence |
| GitOutput.FirstOccurrencesOfDistinct | src/components/GitBranchManager.ts:91 | a list without repeats passes through de-duplication unchanged |
| GitOutput.FirstOccurrencesIdempotent | src/components/GitBranchManager.ts:91 | de-duplicating twice is de-duplicating once |
| GitOutput.UniqueKeptInOrder | src/components/GitBranchManager.ts:90-91 | filtering and then removing repeats lists names in the order of their first occurrence in the input |
| GitOutput.ParseBranches | src/components/GitBranchManager.ts:86-91 | every listed name is kept by the filter, names are pairwise distinct, a name is listed exactly when some normalised line equals it and the filter keeps it, and names come in the order of their first line in the listing |
| GitOutput.BranchesFrom | src/components/GitBranchManager.ts:84-96 | a failing `git branch -a` yields the empty list; otherwise the parse of its output |
| GitOutput.LocalAndRemoteGiveOneEntry | src/components/GitBranchManager.ts:86-91 | a branch listed as current and as its remote copy appears once |
| GitOutput.CurrentBranchAlone | src/components/GitBranchManager.ts:86-91 | a listing of only the current branch offers that branch |
| GitOutput.CheckConflict | src/components/GitBranchManager.ts:194-201 | a failing status command counts as no conflict; otherwise there is a conflict exactly when `UU`, `AA` or `DD` occurs somewhere in the output |
| GitOutput.ConflictIffCodeOccurs | src/components/GitBranchManager.ts:197 | the conflict test holds exactly when one of the three codes occurs at some index |
| GitOutput.ConflictMonotone | src/components/GitBranchManager.ts:197 | adding status text on either side never hides a conflict |
| GitOutput.ConflictTestIsTextual | src/components/GitBranchManager.ts:197 | a modified file named `AA.txt` counts as a conflict, while an unmerged `UD` entry does not |
| MergeFlow.Commands | src/components/GitBranchManager.ts:124-138 | each step of a plan issues exactly one command, in plan order |
| MergeFlow.Completed | src/components/GitBranchManager.ts:117-145 | counts the leading steps that go through; it is never more than the plan's length |
| MergeFlow.CompletedIsFirstFailure | src/components/GitBranchManager.ts:117-145 | every step before the count goes through, and the step at the count, if there is one, fails |
| MergeFlow.RunPlanOfFailed | src/components/GitBranchManager.ts:117-145 | once a step has failed, no further command is issued and the failure is kept |
| MergeFlow.Issue | src/components/GitBranchManager.ts:150-164 | after a failure an awaited step does nothing; on a clean trace it issues its command, and the trace stays clean exactly when the step goes through |
| MergeFlow.SwitchToBranch | src/components/GitBranchManager.ts:161-164 | on a clean trace, `git checkout b` is issued, and the trace fails with git's reason exactly when the checkout is rejected |
| MergeFlow.SwitchAndPullBranch | src/components/GitBranchManager.ts:150-156 | on a clean trace, the checkout is issued and the pull only when the checkout went through; the trace stays clean exactly when both are accepted |
| MergeFlow.MergeToTargetBranch | src/components/GitBranchManager.ts:169-189 | the step adds at most five commands to the history, all five when it ends clean, and a conflict found in it names this source and target |
| MergeFlow.ExecuteMergeFlow | src/components/GitBranchManager.ts:117-145 | after a failure nothing is issued; a run adds at most thirteen commands, and a clean run adds exactly the thirteen of the plan |
| MergeFlow.RunPlanFailsIff | src/components/GitBranchManager.ts:117-145 | a run fails exactly when some step does not go through |
| MergeFlow.RunPlanIssuesReached | src/components/GitBranchManager.ts:117-145 | a run issues the plan's commands up to and including the first failing step, and nothing after it |
| MergeFlow.RunPlanAppend | src/components/GitBranchManager.ts:117-145 | running two plans one after the other is running their concatenation |
| MergeFlow.MergeStepRunsPlan | src/components/GitBranchManager.ts:169-189 | the merge into one target is the five steps checkout, pull, merge, conflict check and push, each awaited in turn |
| MergeFlow.ExecuteMergeFlowRunsPlan | src/components/GitBranchManager.ts:117-145 | the source's chain of awaits is the thirteen-step plan run step by step |
| MergeFlow.MergePlanCommands | src/components/GitBranchManager.ts:124-138 | the plan's commands in order: checkout and pull of the picked branch, its merge into `dev`, the merge of `dev` into `sit`, then the checkout of the original branch |
| MergeFlow.MergeFlowFollowsPlan | src/components/GitBranchManager.ts:117-145 | a run issues the plan up to its first failing step, succeeds exactly when all thirteen steps go through, and then has issued the whole plan |
| MergeFlow.MergePlanGuardsPushes | src/components/GitBranchManager.ts:182-188 | every push in the plan directly follows a conflict check |
| MergeFlow.RunPlanPushesAfterCleanCheck | src/components/GitBranchManager.ts:182-188 | in a run of a plan whose pushes follow conflict checks, every issued push comes right after a status whose output shows no conflict |
| MergeFlow.PushOnlyAfterCleanCheck | src/components/GitBranchManager.ts:182-188 | the merge flow pushes only right after a status check that found no conflict |
| MergeFlow.MergesInPlan | src/components/GitBranchManager.ts:130-134 | the plan's only merges are the picked branch at step 4 and `dev` at step 9 |
| MergeFlow.MergeOrderIsFixed | src/components/GitBranchManager.ts:128-134 | every merge issued is either the picked branch into `dev` after `dev` was checked out, or `dev` into `sit` after `dev` was pushed and `sit` checked out |
| MergeFlow.AutoMerge | src/components/GitBranchManager.ts:21-51 | an unreadable current branch gives one error and nothing more; a dismissed pick or unconfirmed dialog ends silently after the two reads; a confirmed run shows exactly one notice, either the success message or an error starting with the failure prefix |
| MergeFlow.CancelIssuesNoMutation | src/components/GitBranchManager.ts:31-42 | cancelling at the pick or at the confirmation issues no command that changes the repository and shows nothing |
| MergeFlow.ConfirmedRunFollowsPlan | src/components/GitBranchManager.ts:38-50 | a confirmed run issues the plan for the picked entry against the trimmed current branch, up to its first failing step, and reports success exactly when all thirteen steps go through |
| MergeFlow.CooperativeOffers | src/components/GitBranchManager.ts:64-79 | with git listing only the current branch, the quick pick offers exactly that branch |
| MergeFlow.CooperativeCompletes | src/components/GitBranchManager.ts:117-145 | on git that accepts every command and reports no conflict, every step of any plan goes through |
| MergeFlow.CooperativeFlowSucceeds | src/components/GitBranchManager.ts:117-145 | on git that accepts every command and reports no conflict, the flow ends clean after issuing the whole thirteen-step plan |
| MergeFlow.SelfMergeIsNotRejected | src/components/GitBranchManager.ts:64-79 | picking the branch one is on is allowed: it is merged into `dev` and `sit`, checked out again, and reported as a success |
| Extension.HelloWorld | src/extension.ts:7-12 | a dismissed or empty input shows nothing; otherwise one message shows the input followed by `Hello World!` |
| Extension.ExplorerContext | src/extension.ts:14-40 | a cancelled or empty input does nothing; an unreadable template rejects before any effect; an existing folder gets the warning naming the component and the success message, and exactly the two rendered files are written into it anyway; a fresh folder is created, then gets the two rendered files and the success message; a folder that cannot be created rejects after the `createDirectory` and writes nothing; the command rejects exactly in those two failure cases, never because of a write |
| Extension.ExplorerContextIgnoresWriteFailures | src/extension.ts:35-36 | the writes are not awaited: the result is the same whatever writes the file system refuses |
| Extension.DotInputWritesIntoTarget | src/extension.ts:17-25 | the unvalidated input `.` resolves to the target folder itself, so the warning names `.` and the files are written straight into the target |
| Extension.ExplorerContextAgreesOnFreshFolder | src/extension.ts:14-40 | on a fresh folder with readable templates and writes that go through, the older command does exactly what `createComponent` does |
| Extension.ExistingFolderIsOverwritten | src/extension.ts:23-37 | on an existing folder, `createComponent` writes nothing, while the older command writes both rendered files |
| Extension.ExplorerContextRendersTemplate | src/extension.ts:31-37 | for a name without `{` or `$`, the older command's JSX file has the capitalised name at all five placeholder sites and no placeholder left; the command does not validate its input, so the lemma asks for that itself |
| Extension.Activate | src/extension.ts:42 | `activate` registers two distinct commands: `extension.helloWorld` and `extension.explorerContext` |
| Extension.ActivateOmitsGenerator | src/test/extension.test.ts:37-49 | exactly two commands are registered, and `extension.createJsxComponent` is not one of them |

## Left out

- Editor UI is a parameter or a notice, not modelled further:
  - the input box, quick pick, modal warning and progress notification;
  - the output channel, its log lines and their `toLocaleTimeString` timestamps;
  - the text of the confirmation message.
- `showBranchInfo` is not modelled: it only writes the branch list to the log, and its parsing is `GitOutput.BranchesFrom`.
- Command registration and `dispose` are not modelled: only the identifiers `activate` registers are, in `Extension.Activate`.
- `child_process.exec` is an oracle; real git semantics are not modelled. A merge that stops on conflicts appears as a rejected `Merge` when the oracle says so.
- The text of a rejection is kept as an opaque `reason` string, including how `${error}` prints it.
- File-system calls are answered by the abstract `Workspace`. URIs are paths as segment lists, and the bytes of `Buffer.from`/`toString` are the text itself.
- ComponentGenerator.JoinPath: a trailing `/` in the fragment, which posix normalisation keeps, is dropped, because a path is a list of segments. The URI scheme, authority, query and fragment are not modelled. On Windows, `joinPath` of a `file` URI also treats `\` as a separator; only the posix join is modelled, so there an unvalidated `explorerContext` input such as `a\b` names two nested folders where the model has one segment.
- ComponentGenerator.GenerateFiles: under `Promise.all` both writes start together. When both fail, the model reports the JSX write's reason, where the source reports whichever rejects first.
- Extension.ExplorerContext: the two writes are not awaited in the source. Their failures are unobservable, and the model drops them (`Extension.ExplorerContextIgnoresWriteFailures`). Its input is not validated, so a first character outside ASCII is left as it is by `Text.ToUpper`, where `toUpperCase` may map it.
- Text.ToUpper: upper-cases ASCII letters only. `toUpperCase` also maps other scripts (and `ß` to two characters). Only the first character is affected. For an accepted name that character is an ASCII letter or, when the name is typed after white space, a white-space character; neither is changed by the other mappings. The older `explorerContext` command does not validate, so its input may start with a non-ASCII letter, which the model leaves as it is.
- The style template `template/jsx/index.module.less` is not part of this model. `Placeholder.RenderCssTestTemplate` uses the style template of the test suite, and every other property holds for any style template.
- `src/test/components/GitBranchManager.test.ts` targets a different revision of the class, so it is not used.
- `Text.IsSpace` is the full ECMAScript white-space set, not an ASCII approximation, because `trim` and `\s` use that set.

=== FILE: ComponentGenerator.dfy ===
/** The component scaffolder of src/components/JsxComponentGenerator.ts: the
    name validator of the input box, first-letter capitalisation, and the
    `createComponent` command as a plan of file-system effects over an abstract
    workspace. */
module ComponentGenerator {
  import opened Host
  import opened Text
  import opened Placeholder

  // ----- the name rule -----

  const EmptyNameMessage: string := "组件名称不能为空"
  const BadNameMessage: string := "组件名称只能包含字母和数字，且必须以字母开头"

  predicate IsNameChar(c: char) { IsAsciiLetter(c) || IsAsciiDigit(c) }

  /** The language of `^[a-zA-Z][a-zA-Z0-9]*$`. */
  predicate IsComponentName(s: string) {
    |s| > 0 && IsAsciiLetter(s[0]) && forall i | 1 <= i < |s| :: IsNameChar(s[i])
  }

  /** The regular expression run as a scan: a letter, then letters and digits up to the end. */
  predicate MatchesNamePattern(s: string) {
    |s| > 0 && IsAsciiLetter(s[0]) && NameCharsOnly(s[1..])
  }

  predicate NameCharsOnly(s: string)
    decreases |s|
  {
    |s| == 0 || (IsNameChar(s[0]) && NameCharsOnly(s[1..]))
  }

  lemma {:induction false} NameCharsOnlyIffAll(s: string)
    ensures NameCharsOnly(s) <==> forall i | 0 <= i < |s| :: IsNameChar(s[i])
    decreases |s|
  {
    if |s| > 0 {
      NameCharsOnlyIffAll(s[1..]);
      assert forall i | 1 <= i < |s| :: s[1..][i - 1] == s[i];
    }
  }

  lemma NamePatternIsComponentName(s: string)
    ensures MatchesNamePattern(s) <==> IsComponentName(s)
  {
    if |s| > 0 {
      NameCharsOnlyIffAll(s[1..]);
      assert forall i | 1 <= i < |s| :: s[1..][i - 1] == s[i];
    }
  }

  /** `validateInput` of the input box: null (None) accepts the text, a
      message rejects it. Blank text is rejected first; otherwise the trimmed
      text must match the name rule. */
  function Validate(value: string): (r: Option<string>)
    ensures AllSpace(value) ==> r == Some(EmptyNameMessage)
    ensures !AllSpace(value) && IsComponentName(Trim(value)) ==> r == None
    ensures !AllSpace(value) && !IsComponentName(Trim(value)) ==> r == Some(BadNameMessage)
  {
    TrimEmptyIffBlank(value);
    NamePatternIsComponentName(Trim(value));
    if value == "" || |Trim(value)| == 0 then Some(EmptyNameMessage)
    else if !MatchesNamePattern(Trim(value)) then Some(BadNameMessage)
    else None
  }

  lemma ValidatorAcceptsIffTrimmedName(value: string)
    ensures Validate(value) == None <==> IsComponentName(Trim(value))
  {
    if AllSpace(value) {
      TrimEmptyIffBlank(value);
    }
  }

  /** Text without white space at either end trims to itself. */
  lemma TrimmedWord(s: string)
    requires |s| > 0 && !IsSpace(s[0]) && !IsSpace(s[|s| - 1])
    ensures Trim(s) == s
  {
    TrimOfFramed("", s, "");
    assert "" + s + "" == s;
  }

  /** A name the validator accepts: it carries no white space to trim. */
  lemma AcceptedExample(s: string)
    requires IsComponentName(s)
    ensures Validate(s) == None
  {
    TrimmedWord(s);
  }

  /** A word with no white space at its ends that breaks the name rule at `i`:
      a first character that is not a letter, or a later one that is neither
      a letter nor a digit. */
  lemma RejectedExample(s: string, i: nat)
    requires |s| > 0 && !IsSpace(s[0]) && !IsSpace(s[|s| - 1])
    requires i < |s| && (if i == 0 then !IsAsciiLetter(s[0]) else !IsNameChar(s[i]))
    ensures Validate(s) == Some(BadNameMessage)
  {
    assert !AllSpace(s) by { assert !IsSpace(s[0]); }
    assert !IsComponentName(Trim(s)) by {
      TrimmedWord(s);
      if i > 0 {
        assert 1 <= i < |s| && !IsNameChar(s[i]);
      }
    }
  }

  // The vectors of the test suites, a literal or two per lemma (the solver
  // handles long literals one at a time).

  lemma ValidatorAcceptsExamples()
    ensures Validate("ValidName") == None
    ensures Validate("A") == None
  {
    AcceptedExample("ValidName");
    AcceptedExample("A");
  }

  lemma ValidatorAcceptsDigits()
    ensures Validate("Component123") == None
  {
    AcceptedExample("Component123");
  }

  lemma ValidatorRejectsBlank()
    ensures Validate("") == Some(EmptyNameMessage)
    ensures Validate("   ") == Some(EmptyNameMessage)
  {
    EmptyRejected();
    SpacesRejected();
  }

  lemma EmptyRejected()
    ensures Validate("") == Some(EmptyNameMessage)
  {
    assert AllSpace("");
  }

  lemma SpacesRejected()
    ensures Validate("   ") == Some(EmptyNameMessage)
  {
    assert AllSpace("   ") by { assert "   "[0] == ' ' && "   "[1] == ' ' && "   "[2] == ' '; }
  }

  lemma ValidatorRejectsMalformed()
    ensures Validate("123invalid") == Some(BadNameMessage)
    ensures Validate("invalid-name") == Some(BadNameMessage)
  {
    RejectedExample("123invalid", 0);
    RejectedExample("invalid-name", 7);
  }

  lemma ValidatorRejectsInnerSpace()
    ensures Validate("component name") == Some(BadNameMessage)
  {
    RejectedExample("component name", 9);
  }

  lemma ValidatorRejectsNonAscii()
    ensures Validate("中文组件名") == Some(BadNameMessage)
  {
    RejectedExample("中文组件名", 0);
  }

  // ----- capitalisation -----

  /** `str.charAt(0).toUpperCase() + str.slice(1)`. */
  function Capitalize(s: string): (r: string)
    ensures |r| == |s|
    ensures |s| > 0 ==> r[0] == ToUpper(s[0])
    ensures forall i | 1 <= i < |s| :: r[i] == s[i]
  {
    if |s| == 0 then "" else [ToUpper(s[0])] + s[1..]
  }

  lemma CapitalizeIdempotent(s: string)
    ensures Capitalize(Capitalize(s)) == Capitalize(s)
  {
    if |s| > 0 {
      ToUpperIdempotent(s[0]);
    }
  }

  /** A valid name stays valid and starts with a capital letter. */
  lemma CapitalizeKeepsName(s: string)
    requires IsComponentName(s)
    ensures IsComponentName(Capitalize(s))
    ensures IsAsciiUpper(Capitalize(s)[0])
    ensures Capitalize(s)[1..] == s[1..]
  {}

  /** Whatever the validator lets through becomes a non-empty folder name with
      no `{` (so it cannot spell a placeholder) and no `$` (so the replace
      inserts it literally). */
  lemma AcceptedInputIsPlain(v: string)
    requires Validate(v) == None
    ensures |Capitalize(v)| > 0
    ensures '{' !in Capitalize(v) && '$' !in Capitalize(v)
    // and `joinPath` takes it as one segment: no `/`, and not `.` or `..`
    ensures PlainSegment(Capitalize(v))
  {
    AcceptedCharacters(v);
    var name := Capitalize(v);
    forall i | 0 <= i < |name| ensures name[i] != '{' && name[i] != '$' && name[i] != '/' && name[i] != '.' {
      PlainCharacter(v[i]);
    }
    assert name[0] != '.';
  }

  /** The folder of an accepted name is one segment below the target. */
  lemma AcceptedFolderIsChild(v: string, target: Path)
    requires Validate(v) == None
    ensures FolderFor(target, v) == target + [Capitalize(v)]
  {
    AcceptedInputIsPlain(v);
  }

  /** Neither a space nor a name character, upper-cased or not, is `{`, `$`,
      `/` or `.`. */
  lemma PlainCharacter(c: char)
    requires IsSpace(c) || IsNameChar(c)
    ensures c != '{' && c != '$' && c != '/' && c != '.'
    ensures ToUpper(c) != '{' && ToUpper(c) != '$' && ToUpper(c) != '/' && ToUpper(c) != '.'
  {}

  /** Every character of an accepted input is a space or a name character. */
  lemma AcceptedCharacters(v: string)
    requires Validate(v) == None
    ensures |v| > 0
    ensures forall i | 0 <= i < |v| :: IsSpace(v[i]) || IsNameChar(v[i])
  {
    ValidatorAcceptsIffTrimmedName(v);
    var t := Trim(v);
    var k := |v| - |TrimStart(v)|;
    forall i | 0 <= i < |v| ensures IsSpace(v[i]) || IsNameChar(v[i]) {
      if i < k {
        assert v[..k][i] == v[i];
      } else if i < k + |t| {
        assert t[i - k] == v[i];
      } else {
        assert v[k + |t|..][i - k - |t|] == v[i];
      }
    }
  }

  // ----- the workspace and the effect plan -----

  /** A path as its sequence of segments. */
  type Path = seq<string>

  /** A segment `Uri.joinPath` keeps as it is: not empty, not `.` or `..`,
      and without `/`. */
  predicate PlainSegment(s: string) {
    s != "" && s != "." && s != ".." && '/' !in s
  }

  /** The posix normalisation `Uri.joinPath` applies to the pieces of a
      fragment: empty pieces and `.` are dropped, and `..` removes the last
      segment (it cannot climb above the root). */
  function Resolve(base: Path, parts: seq<string>): Path
    decreases |parts|
  {
    if parts == [] then base
    else if parts[0] == "" || parts[0] == "." then Resolve(base, parts[1..])
    else if parts[0] == ".." then Resolve(if base == [] then [] else base[..|base| - 1], parts[1..])
    else Resolve(base + [parts[0]], parts[1..])
  }

  /** `Uri.joinPath(base, fragment)`: the fragment is split at `/` and its
      pieces are resolved against `base`. A plain segment is appended. */
  function JoinPath(base: Path, fragment: string): (r: Path)
    ensures PlainSegment(fragment) ==> r == base + [fragment]
    ensures fragment == "." ==> r == base
    ensures fragment == ".." ==> r == if base == [] then [] else base[..|base| - 1]
  {
    assert '/' !in fragment ==> Resolve(base, Split(fragment, '/')) == Resolve(base, [fragment]) by {
      if '/' !in fragment { SplitWithoutSeparator(fragment, '/'); }
    }
    ResolveOne(base, fragment);
    Resolve(base, Split(fragment, '/'))
  }

  /** A `/` in the fragment nests folders. */
  lemma SlashNestsFolders(base: Path)
    ensures JoinPath(base, "a/b") == base + ["a", "b"]
  {
    assert Split("a/b", '/') == ["a", "b"] by {
      SplitWithoutSeparator("b", '/');
      SplitStep('/', "b", '/');
      assert "/b" == ['/'] + "b";
      assert Split("/b", '/') == ["", "b"];
      SplitStep('a', "/b", '/');
      assert "a/b" == ['a'] + "/b" && ['a'] + "" == "a";
    }
    ResolveAppend(base, ["a"], ["b"]);
    assert ["a"] + ["b"] == ["a", "b"];
    ResolveOne(base, "a");
    ResolveOne(base + ["a"], "b");
  }

  /** `..` in the fragment climbs back out of the folder before it. */
  lemma DotsClimb(base: Path)
    ensures JoinPath(base, "a/../b") == base + ["b"]
  {
    SplitWithDots();
    ResolveAppend(base, ["a", ".."], ["b"]);
    assert ["a", ".."] + ["b"] == ["a", "..", "b"];
    ResolveAppend(base, ["a"], [".."]);
    assert ["a"] + [".."] == ["a", ".."];
    ResolveOne(base, "a");
    ResolveOne(base + ["a"], "..");
    assert (base + ["a"])[..|base + ["a"]| - 1] == base;
    ResolveOne(base, "b");
  }

  lemma SplitWithDots()
    ensures Split("a/../b", '/') == ["a", "..", "b"]
  {
    SplitUpward();
    SplitStep('/', "../b", '/');
    assert "/../b" == ['/'] + "../b";
    assert Split("/../b", '/') == ["", "..", "b"];
    SplitStep('a', "/../b", '/');
    assert "a/../b" == ['a'] + "/../b" && ['a'] + "" == "a";
  }

  lemma SplitUpward()
    ensures Split("../b", '/') == ["..", "b"]
  {
    SplitWithoutSeparator("b", '/');
    SplitStep('/', "b", '/');
    assert "/b" == ['/'] + "b";
    assert Split("/b", '/') == ["", "b"];
    SplitStep('.', "/b", '/');
    assert "./b" == ['.'] + "/b" && ['.'] + "" == ".";
    assert Split("./b", '/') == [".", "b"];
    SplitStep('.', "./b", '/');
    assert "../b" == ['.'] + "./b" && ['.'] + "." == "..";
  }

  /** One step of `Split` on a text given as its first character and the rest. */
  lemma SplitStep(c: char, t: string, sep: char)
    ensures Split([c] + t, sep) ==
      if c == sep then [""] + Split(t, sep) else [[c] + Split(t, sep)[0]] + Split(t, sep)[1..]
  {
    assert ([c] + t)[1..] == t;
  }

  /** Resolving a single piece. */
  lemma ResolveOne(base: Path, x: string)
    ensures Resolve(base, [x]) ==
      if x == "" || x == "." then base
      else if x == ".." then (if base == [] then [] else base[..|base| - 1])
      else base + [x]
  {
    assert [x][1..] == [];
  }

  /** Resolving two runs of pieces one after the other is resolving them
      together. */
  lemma {:induction false} ResolveAppend(base: Path, p: seq<string>, q: seq<string>)
    ensures Resolve(base, p + q) == Resolve(Resolve(base, p), q)
    decreases |p|
  {
    if p != [] {
      assert (p + q)[0] == p[0] && (p + q)[1..] == p[1..] + q;
      var next := if p[0] == "" || p[0] == "." then base
        else if p[0] == ".." then (if base == [] then [] else base[..|base| - 1])
        else base + [p[0]];
      ResolveAppend(next, p[1..], q);
    } else {
      assert p + q == q;
    }
  }

  /** Resolution never produces a segment `joinPath` would have rewritten:
      over a normalised base, every segment of the result is plain. */
  lemma {:induction false} ResolveIsNormal(base: Path, parts: seq<string>)
    requires forall k | 0 <= k < |base| :: PlainSegment(base[k])
    requires forall k | 0 <= k < |parts| :: '/' !in parts[k]
    ensures forall k | 0 <= k < |Resolve(base, parts)| :: PlainSegment(Resolve(base, parts)[k])
    decreases |parts|
  {
    if parts != [] {
      var next := if parts[0] == "" || parts[0] == "." then base
        else if parts[0] == ".." then (if base == [] then [] else base[..|base| - 1])
        else base + [parts[0]];
      assert forall k | 0 <= k < |next| :: PlainSegment(next[k]);
      ResolveIsNormal(next, parts[1..]);
    }
  }

  /** Over a normalised base, `joinPath` gives a normalised path whatever
      the fragment. */
  lemma JoinPathIsNormal(base: Path, fragment: string)
    requires forall k | 0 <= k < |base| :: PlainSegment(base[k])
    ensures forall k | 0 <= k < |JoinPath(base, fragment)| :: PlainSegment(JoinPath(base, fragment)[k])
  {
    ResolveIsNormal(base, Split(fragment, '/'));
  }

  datatype ReadResult = Read(text: string) | ReadFailed(reason: string)

  /** What the command can learn from, and do to, the file system:
      `existing` are the paths `stat` finds, `createDirectory` rejects on
      `mkdirFailures`, `read` answers `readFile`, and `writeFile` rejects on
      the paths of `writeFailures` with the given reason. */
  datatype Workspace = Workspace(
    existing: set<Path>,
    mkdirFailures: set<Path>,
    read: Path -> ReadResult,
    writeFailures: map<Path, string>)

  /** A mutating call issued to the file system. */
  datatype FsEffect = CreateDirectory(path: Path) | WriteFile(path: Path, content: string)

  /** Everything one command invocation does: the file-system calls it issues
      in order, the notifications it shows, and whether its promise rejects. */
  datatype Run = Run(effects: seq<FsEffect>, notices: seq<Notice>, raised: bool)

  /** The command `registerCommand` binds `createComponent` to. */
  const CreateCommandId: string := "extension.createJsxComponent"

  const ExistsPrefix: string := "文件夹已存在: "
  const CreatedSuffix: string := "组件创建成功"
  const FilesFailedPrefix: string := "创建组件文件失败: "

  function JsxTemplatePath(extension: Path): Path { extension + ["template", "jsx", "index.jsx"] }

  function CssTemplatePath(extension: Path): Path { extension + ["template", "jsx", "index.module.less"] }

  /** `Uri.joinPath(target, capitalizedName)`: the name is not checked
      there, so `/`, `.` and `..` in it are resolved as path syntax. */
  function FolderFor(target: Path, input: string): Path { JoinPath(target, Capitalize(input)) }

  function JsxOut(folder: Path): Path { folder + ["index.jsx"] }

  function CssOut(folder: Path): Path { folder + ["index.module.less"] }

  /** The two files a successful generation writes into `folder`. */
  function RenderedFiles(folder: Path, name: string, jsx: string, css: string): seq<FsEffect> {
    [WriteFile(JsxOut(folder), GlobalReplace(jsx, Token, name)),
     WriteFile(CssOut(folder), GlobalReplace(css, Token, name))]
  }

  /** Both templates can be read. */
  predicate TemplatesReadable(extension: Path, ws: Workspace) {
    ws.read(JsxTemplatePath(extension)).Read? && ws.read(CssTemplatePath(extension)).Read?
  }

  /** The two rendered files for `folder`, from the templates as read. */
  function RenderedFrom(folder: Path, name: string, extension: Path, ws: Workspace): seq<FsEffect>
    requires TemplatesReadable(extension, ws)
  {
    RenderedFiles(folder, name, ws.read(JsxTemplatePath(extension)).text, ws.read(CssTemplatePath(extension)).text)
  }

  /** `generateComponentFiles`: read both templates, substitute the name, and
      write both files together (`Promise.all`); any rejection is reported and
      rethrown. */
  function GenerateFiles(folder: Path, name: string, extension: Path, ws: Workspace): (run: Run)
    ensures run.raised <==> run.notices != [] && run.notices[|run.notices| - 1].Error?
    ensures run.raised ==> |run.notices| == 1 && StartsWith(run.notices[0].text, FilesFailedPrefix)
    ensures !run.raised ==> run.notices == []
    ensures run.effects == [] || (|run.effects| == 2 && forall k | 0 <= k < 2 :: run.effects[k].WriteFile?)
    // the writes are issued exactly when both reads went through, and they are the rendered templates
    ensures run.effects != [] <==> TemplatesReadable(extension, ws)
    ensures TemplatesReadable(extension, ws) ==> run.effects == RenderedFrom(folder, name, extension, ws)
    // it succeeds exactly when both reads and both writes go through
    ensures !run.raised <==>
      TemplatesReadable(extension, ws) && JsxOut(folder) !in ws.writeFailures && CssOut(folder) !in ws.writeFailures
    // the error carries the reason of the first failing read, else of a failing write
    ensures ws.read(JsxTemplatePath(extension)).ReadFailed? ==>
      run.notices == [Error(FilesFailedPrefix + ws.read(JsxTemplatePath(extension)).reason)]
    ensures ws.read(JsxTemplatePath(extension)).Read? && ws.read(CssTemplatePath(extension)).ReadFailed? ==>
      run.notices == [Error(FilesFailedPrefix + ws.read(CssTemplatePath(extension)).reason)]
    ensures TemplatesReadable(extension, ws) && JsxOut(folder) in ws.writeFailures ==>
      run.notices == [Error(FilesFailedPrefix + ws.writeFailures[JsxOut(folder)])]
    ensures TemplatesReadable(extension, ws) && JsxOut(folder) !in ws.writeFailures && CssOut(folder) in ws.writeFailures ==>
      run.notices == [Error(FilesFailedPrefix + ws.writeFailures[CssOut(folder)])]
  {
    var jsx := ws.read(JsxTemplatePath(extension));
    var css := ws.read(CssTemplatePath(extension));
    if jsx.ReadFailed? then Run([], [Error(FilesFailedPrefix + jsx.reason)], true)
    else if css.ReadFailed? then Run([], [Error(FilesFailedPrefix + css.reason)], true)
    else
      var writes := RenderedFiles(folder, name, jsx.text, css.text);
      if JsxOut(folder) in ws.writeFailures then
        Run(writes, [Error(FilesFailedPrefix + ws.writeFailures[JsxOut(folder)])], true)
      else if CssOut(folder) in ws.writeFailures then
        Run(writes, [Error(FilesFailedPrefix + ws.writeFailures[CssOut(folder)])], true)
      else Run(writes, [], false)
  }

  /** The input names a component whose folder is neither there nor refused:
      the command gets as far as creating it. */
  predicate Proceeds(input: Option<string>, target: Path, ws: Workspace) {
    && input.Some? && input.value != ""
    && FolderFor(target, input.value) !in ws.existing
    && FolderFor(target, input.value) !in ws.mkdirFailures
  }

  /** `createComponent`: `input` is what the input box returned (None when
      cancelled). */
  function CreateComponent(input: Option<string>, target: Path, extension: Path, ws: Workspace): (run: Run)
    // cancelled or empty input: nothing happens
    ensures (input == None || input == Some("")) ==> run == Run([], [], false)
    // an existing folder: the exists warning naming it, and no effect
    ensures input.Some? && input.value != "" && FolderFor(target, input.value) in ws.existing ==>
      && run.effects == [] && !run.raised
      && run.notices == [Warning(ExistsPrefix + Capitalize(input.value))]
      && Contains(run.notices[0].text, Capitalize(input.value))
    // otherwise the folder is created first, and the only other effects are writes directly inside it
    ensures input.Some? && input.value != "" && FolderFor(target, input.value) !in ws.existing ==>
      && |run.effects| >= 1
      && run.effects[0] == CreateDirectory(FolderFor(target, input.value))
      && (forall k | 1 <= k < |run.effects| ::
            && run.effects[k].WriteFile?
            && |run.effects[k].path| == |FolderFor(target, input.value)| + 1
            && run.effects[k].path[..|FolderFor(target, input.value)|] == FolderFor(target, input.value))
    // a folder that cannot be created: the rejection propagates, nothing is shown
    ensures (&& input.Some? && input.value != "" && FolderFor(target, input.value) !in ws.existing
             && FolderFor(target, input.value) in ws.mkdirFailures) ==>
      run == Run([CreateDirectory(FolderFor(target, input.value))], [], true)
    // a template that cannot be read: the folder stays, an error is shown and rethrown
    ensures Proceeds(input, target, ws) && !TemplatesReadable(extension, ws) ==>
      && run.effects == [CreateDirectory(FolderFor(target, input.value))]
      && run.raised
      && |run.notices| == 1 && run.notices[0].Error?
    // both templates read: the folder, then both rendered files, whether or not the writes go through
    ensures Proceeds(input, target, ws) && TemplatesReadable(extension, ws) ==>
      run.effects == [CreateDirectory(FolderFor(target, input.value))]
        + RenderedFrom(FolderFor(target, input.value), Capitalize(input.value), extension, ws)
    // the run succeeds exactly when every read and write goes through
    ensures Proceeds(input, target, ws) ==>
      (!run.raised <==> && TemplatesReadable(extension, ws)
                        && JsxOut(FolderFor(target, input.value)) !in ws.writeFailures
                        && CssOut(FolderFor(target, input.value)) !in ws.writeFailures)
    // a failed generation shows the generator's error and nothing else
    ensures Proceeds(input, target, ws) && run.raised ==>
      run.notices == GenerateFiles(FolderFor(target, input.value), Capitalize(input.value), extension, ws).notices
    // success: folder, then both rendered files, then one message naming the component
    ensures !run.raised && run.effects != [] ==>
      && input.Some?
      && |run.effects| == 3
      && run.notices == [Info(Capitalize(input.value) + CreatedSuffix)]
      && Contains(run.notices[0].text, Capitalize(input.value))
  {
    match input
    case None => Run([], [], false)
    case Some(v) =>
      if v == "" then Run([], [], false)
      else
        var name := Capitalize(v);
        var folder := FolderFor(target, v);
        if folder in ws.existing then
          var warning := ExistsPrefix + name;
          ContainsMonotone(ExistsPrefix, name, "", name);
          assert ExistsPrefix + name + "" == warning;
          Run([], [Warning(warning)], false)
        else if folder in ws.mkdirFailures then
          Run([CreateDirectory(folder)], [], true)
        else
          var gen := GenerateFiles(folder, name, extension, ws);
          GeneratedInside(folder, name, extension, ws);
          if gen.raised then
            Run([CreateDirectory(folder)] + gen.effects, gen.notices, true)
          else
            var info := name + CreatedSuffix;
            ContainsMonotone("", name, CreatedSuffix, name);
            assert "" + name + CreatedSuffix == info;
            Run([CreateDirectory(folder)] + gen.effects, [Info(info)], false)
  }

  /** Whatever the generator writes lies directly inside the folder. */
  lemma GeneratedInside(folder: Path, name: string, extension: Path, ws: Workspace)
    ensures var e := GenerateFiles(folder, name, extension, ws).effects;
      forall k | 0 <= k < |e| ::
        && e[k].WriteFile?
        && |e[k].path| == |folder| + 1
        && e[k].path[..|folder|] == folder
  {
    assert JsxOut(folder)[..|folder|] == folder;
    assert CssOut(folder)[..|folder|] == folder;
  }

  /** The call went through: `createDirectory` and `writeFile` reject on
      their failure paths. */
  predicate Succeeded(ws: Workspace, e: FsEffect) {
    match e
    case CreateDirectory(p) => p !in ws.mkdirFailures
    case WriteFile(p, _) => p !in ws.writeFailures
  }

  /** The workspace after a run: every directory created and every file
      written by a call that went through now exists, and nothing else
      changes. */
  function AfterRun(ws: Workspace, run: Run): (next: Workspace)
    ensures next == ws.(existing := next.existing)
    ensures next.existing >= ws.existing
    ensures forall k | 0 <= k < |run.effects| && Succeeded(ws, run.effects[k]) :: run.effects[k].path in next.existing
    ensures forall p | p in next.existing && p !in ws.existing ::
      exists k | 0 <= k < |run.effects| :: Succeeded(ws, run.effects[k]) && run.effects[k].path == p
  {
    ws.(existing := ws.existing + set k | 0 <= k < |run.effects| && Succeeded(ws, run.effects[k]) :: run.effects[k].path)
  }

  /** The two files of a component are distinct paths. */
  lemma OutputsDiffer(folder: Path)
    ensures JsxOut(folder) != CssOut(folder)
  {
    assert JsxOut(folder)[|folder|] != CssOut(folder)[|folder|];
  }

  /** A successful run leaves the folder and both of its files in place. */
  lemma SuccessLeavesComponent(v: string, target: Path, extension: Path, ws: Workspace)
    requires v != ""
    requires !CreateComponent(Some(v), target, extension, ws).raised
    requires CreateComponent(Some(v), target, extension, ws).effects != []
    ensures var next := AfterRun(ws, CreateComponent(Some(v), target, extension, ws));
      var folder := FolderFor(target, v);
      && folder in next.existing && JsxOut(folder) in next.existing && CssOut(folder) in next.existing
  {
    var run := CreateComponent(Some(v), target, extension, ws);
    var folder := FolderFor(target, v);
    assert Succeeded(ws, run.effects[0]);
    assert run.effects[1].path == JsxOut(folder) && Succeeded(ws, run.effects[1]);
    assert run.effects[2].path == CssOut(folder) && Succeeded(ws, run.effects[2]);
  }

  /** Creating the same component twice: the second run finds the folder the
      first one made, warns, and touches nothing. */
  lemma CreateTwiceIsRejected(input: Option<string>, target: Path, extension: Path, ws: Workspace)
    requires input.Some? && CreateComponent(input, target, extension, ws).effects != []
    requires FolderFor(target, input.value) !in ws.mkdirFailures
    ensures var again := CreateComponent(input, target, extension, AfterRun(ws, CreateComponent(input, target, extension, ws)));
      && again.effects == [] && !again.raised
      && again.notices == [Warning(ExistsPrefix + Capitalize(input.value))]
  {
    var first := CreateComponent(input, target, extension, ws);
    assert first.effects[0] == CreateDirectory(FolderFor(target, input.value));
    assert Succeeded(ws, first.effects[0]);
  }

  /** The warning for an existing folder says that the folder already exists
      (`已存在`) and names the component. */
  lemma ExistingFolderWarns(v: string, target: Path, extension: Path, ws: Workspace)
    requires v != "" && FolderFor(target, v) in ws.existing
    ensures var run := CreateComponent(Some(v), target, extension, ws);
      && |run.notices| == 1 && run.notices[0].Warning?
      && Contains(run.notices[0].text, "已存在")
      && Contains(run.notices[0].text, Capitalize(v))
  {
    var run := CreateComponent(Some(v), target, extension, ws);
    assert run.notices[0].text == ExistsPrefix + Capitalize(v);
    assert OccursAt(ExistsPrefix, "已存在", 3);
    ContainsIffOccurs(ExistsPrefix, "已存在");
    ContainsMonotone("", ExistsPrefix, Capitalize(v), "已存在");
    assert "" + ExistsPrefix + Capitalize(v) == run.notices[0].text;
  }

  /** A folder that cannot be created is not recorded, so running the
      command again tries to create it again. */
  lemma FailedFolderIsRetried(v: string, target: Path, extension: Path, ws: Workspace)
    requires v != ""
    requires FolderFor(target, v) !in ws.existing && FolderFor(target, v) in ws.mkdirFailures
    ensures var first := CreateComponent(Some(v), target, extension, ws);
      && first.raised
      && CreateComponent(Some(v), target, extension, AfterRun(ws, first)) == first
  {
    var first := CreateComponent(Some(v), target, extension, ws);
    var next := AfterRun(ws, first);
    assert !Succeeded(ws, first.effects[0]);
    assert next.existing == ws.existing;
  }

  /** A name the validator accepted, with the shipped JSX template on disk:
      the JSX file is the template with the capitalised name at all five
      placeholder sites and no placeholder left. */
  lemma ValidInputRendersTemplate(v: string, target: Path, extension: Path, ws: Workspace)
    requires Validate(v) == None
    requires FolderFor(target, v) !in ws.existing && FolderFor(target, v) !in ws.mkdirFailures
    requires ws.read(JsxTemplatePath(extension)) == Read(JsxTemplate)
    requires ws.read(CssTemplatePath(extension)).Read?
    requires ws.writeFailures == map[]
    ensures var run := CreateComponent(Some(v), target, extension, ws);
      && |run.effects| == 3 && !run.raised
      && run.effects[1] == WriteFile(JsxOut(FolderFor(target, v)), Join(JsxPieces, Capitalize(v)))
      && !Contains(run.effects[1].content, Token)
      && |Matches(run.effects[1].content, Capitalize(v))| >= 5
      && run.notices == [Info(Capitalize(v) + CreatedSuffix)]
  {
    var name := Capitalize(v);
    var folder := FolderFor(target, v);
    var run := CreateComponent(Some(v), target, extension, ws);
    assert && run.effects == [CreateDirectory(folder)] + RenderedFrom(folder, name, extension, ws)
           && !run.raised && run.notices == [Info(name + CreatedSuffix)];
    assert run.effects[1].content == GlobalReplace(JsxTemplate, Token, name);
    assert '{' !in name && '$' !in name by { AcceptedInputIsPlain(v); }
    RenderJsxTemplate(name);
  }

  /** A file that cannot be written: both writes were still issued together,
      the folder stays, and the error carries the failure (the JSX file's
      when both fail). */
  lemma WriteFailureIsReported(v: string, target: Path, extension: Path, ws: Workspace)
    requires v != ""
    requires FolderFor(target, v) !in ws.existing && FolderFor(target, v) !in ws.mkdirFailures
    requires TemplatesReadable(extension, ws)
    requires JsxOut(FolderFor(target, v)) in ws.writeFailures || CssOut(FolderFor(target, v)) in ws.writeFailures
    ensures var run := CreateComponent(Some(v), target, extension, ws);
      var wf := ws.writeFailures;
      var folder := FolderFor(target, v);
      && run.raised
      && run.effects == [CreateDirectory(folder)] + RenderedFrom(folder, Capitalize(v), extension, ws)
      && run.notices == [Error(FilesFailedPrefix + (if JsxOut(folder) in wf then wf[JsxOut(folder)] else wf[CssOut(folder)]))]
  {}

  /** The validator trims but the folder name does not: a valid name behind a
      space is accepted, and the folder keeps the space and the lower-case
      first letter (" foo" gives the folder " foo", not "Foo"). */
  lemma FolderUsesUntrimmedInput(w: string, target: Path)
    requires IsComponentName(w)
    ensures Validate(" " + w) == None
    ensures Capitalize(" " + w) == " " + w
    ensures FolderFor(target, " " + w) == target + [" " + w]
  {
    var v := " " + w;
    assert Trim(v) == w by {
      TrimOfFramed(" ", w, "");
      assert " " + w + "" == v;
    }
    assert !AllSpace(v) by { assert v[1] == w[0]; }
    assert Capitalize(v) == v;
    AcceptedFolderIsChild(v, target);
  }
}

=== FILE: Extension.dfy ===
/** The entry point of src/extension.ts: the `helloWorld` command, the older
    `explorerContext` scaffolder, and the commands `activate` registers. */
module Extension {
  import opened Host
  import opened Text
  import opened Placeholder
  import opened ComponentGenerator

  const HelloSuffix: string := "Hello World!"

  /** `helloWorld`: echoes the input followed by "Hello World!", and shows
      nothing when the input box was cancelled or left empty. */
  function HelloWorld(input: Option<string>): (notices: seq<Notice>)
    ensures (input == None || input == Some("")) <==> notices == []
    ensures notices != [] ==>
      && |notices| == 1 && notices[0].Info?
      && StartsWith(notices[0].text, input.value)
      && notices[0].text[|input.value|..] == HelloSuffix
  {
    match input
    case None => []
    case Some(what) =>
      if what == "" then []
      else
        var text := what + HelloSuffix;
        assert text[..|what|] == what && text[|what|..] == HelloSuffix;
        [Info(text)]
  }

  /** `explorerContext`: reads both templates first, then creates the folder
      unless it exists (warning when it does), and writes both files in
      either case. The writes are not awaited, so their failures are never
      seen; no name check is made, so the folder is whatever `joinPath`
      makes of the capitalised input. */
  function ExplorerContext(input: Option<string>, target: Path, extension: Path, ws: Workspace): (run: Run)
    ensures (input == None || input == Some("")) ==> run == Run([], [], false)
    // a template that cannot be read: the command rejects before touching anything
    ensures input.Some? && input.value != "" && !TemplatesReadable(extension, ws) ==>
      run == Run([], [], true)
    // an existing folder is warned about and both rendered files are written into it all the same
    ensures (&& input.Some? && input.value != "" && TemplatesReadable(extension, ws)
             && FolderFor(target, input.value) in ws.existing) ==>
      && !run.raised
      && |run.effects| == 2 && run.effects[0].WriteFile? && run.effects[1].WriteFile?
      && |run.notices| == 2 && run.notices[0].Warning? && run.notices[1].Info?
      && Contains(run.notices[0].text, Capitalize(input.value))
      && run.effects == RenderedFrom(FolderFor(target, input.value), Capitalize(input.value), extension, ws)
      && run.notices == [Warning(ExistsPrefix + Capitalize(input.value)), Info(Capitalize(input.value) + CreatedSuffix)]
    // a fresh folder: created, then both rendered files, then the success message
    ensures (&& input.Some? && input.value != "" && TemplatesReadable(extension, ws)
             && FolderFor(target, input.value) !in ws.existing
             && FolderFor(target, input.value) !in ws.mkdirFailures) ==>
      run == Run([CreateDirectory(FolderFor(target, input.value))]
                   + RenderedFrom(FolderFor(target, input.value), Capitalize(input.value), extension, ws),
                 [Info(Capitalize(input.value) + CreatedSuffix)], false)
    // a folder that cannot be created: the rejection propagates before any write
    ensures (&& input.Some? && input.value != "" && TemplatesReadable(extension, ws)
             && FolderFor(target, input.value) !in ws.existing
             && FolderFor(target, input.value) in ws.mkdirFailures) ==>
      run == Run([CreateDirectory(FolderFor(target, input.value))], [], true)
    // only an unreadable template or a refused folder makes it reject; a write never does
    ensures run.raised <==>
      && input.Some? && input.value != ""
      && (!TemplatesReadable(extension, ws)
          || (FolderFor(target, input.value) !in ws.existing && FolderFor(target, input.value) in ws.mkdirFailures))
  {
    match input
    case None => Run([], [], false)
    case Some(what) =>
      if what == "" then Run([], [], false)
      else
        var name := Capitalize(what);
        var jsx := ws.read(JsxTemplatePath(extension));
        var css := ws.read(CssTemplatePath(extension));
        if jsx.ReadFailed? || css.ReadFailed? then Run([], [], true)
        else
          var folder := FolderFor(target, what);
          var writes := RenderedFiles(folder, name, jsx.text, css.text);
          var info := Info(name + CreatedSuffix);
          if folder in ws.existing then
            var warning := ExistsPrefix + name;
            ContainsMonotone(ExistsPrefix, name, "", name);
            assert ExistsPrefix + name + "" == warning;
            Run(writes, [Warning(warning), info], false)
          else if folder in ws.mkdirFailures then Run([CreateDirectory(folder)], [], true)
          else Run([CreateDirectory(folder)] + writes, [info], false)
  }

  /** On a fresh folder, with both templates readable and every write going
      through, the older command does exactly what `createComponent` does. */
  lemma ExplorerContextAgreesOnFreshFolder(input: Option<string>, target: Path, extension: Path, ws: Workspace)
    requires input.Some? && input.value != ""
    requires FolderFor(target, input.value) !in ws.existing
    requires TemplatesReadable(extension, ws)
    requires ws.writeFailures == map[]
    ensures ExplorerContext(input, target, extension, ws) == CreateComponent(input, target, extension, ws)
  {}

  /** The writes are never awaited: the file system's write failures make no
      difference to what the command does or reports. */
  lemma ExplorerContextIgnoresWriteFailures(input: Option<string>, target: Path, extension: Path, ws: Workspace)
    ensures ExplorerContext(input, target, extension, ws) ==
      ExplorerContext(input, target, extension, ws.(writeFailures := map[]))
  {
    assert TemplatesReadable(extension, ws) == TemplatesReadable(extension, ws.(writeFailures := map[]));
  }

  /** The input "." is not a folder name to `joinPath`: the target folder
      itself is found, the warning names ".", and the files are written
      straight into the target. */
  lemma DotInputWritesIntoTarget(target: Path, extension: Path, ws: Workspace)
    requires target in ws.existing
    requires TemplatesReadable(extension, ws)
    ensures var run := ExplorerContext(Some("."), target, extension, ws);
      && run.notices[0] == Warning(ExistsPrefix + ".")
      && run.effects == RenderedFrom(target, ".", extension, ws)
      && run.effects[0].path == JsxOut(target)
  {
    assert Capitalize(".") == ".";
    assert FolderFor(target, ".") == target;
  }

  /** Where the two commands part: on an existing folder the newer one writes
      nothing, the older one overwrites both files. */
  lemma ExistingFolderIsOverwritten(input: Option<string>, target: Path, extension: Path, ws: Workspace)
    requires input.Some? && input.value != ""
    requires FolderFor(target, input.value) in ws.existing
    requires TemplatesReadable(extension, ws)
    ensures CreateComponent(input, target, extension, ws).effects == []
    ensures ExplorerContext(input, target, extension, ws).effects ==
      RenderedFiles(FolderFor(target, input.value), Capitalize(input.value),
                    ws.read(JsxTemplatePath(extension)).text, ws.read(CssTemplatePath(extension)).text)
  {}

  /** Both files get the capitalised input at every placeholder: with the
      shipped JSX template, none is left and the name occurs five times. */
  lemma ExplorerContextRendersTemplate(what: string, target: Path, extension: Path, ws: Workspace)
    requires what != "" && '{' !in what && '$' !in what
    requires ws.read(JsxTemplatePath(extension)) == Read(JsxTemplate)
    requires ws.read(CssTemplatePath(extension)).Read?
    requires FolderFor(target, what) !in ws.mkdirFailures
    ensures |ExplorerContext(Some(what), target, extension, ws).effects| >= 2
    ensures var run := ExplorerContext(Some(what), target, extension, ws);
      var jsxWrite := run.effects[|run.effects| - 2];
      && jsxWrite == WriteFile(JsxOut(FolderFor(target, what)), Join(JsxPieces, Capitalize(what)))
      && !Contains(jsxWrite.content, Token)
      && |Matches(jsxWrite.content, Capitalize(what))| >= 5
  {
    var name := Capitalize(what);
    assert '{' !in name && '$' !in name by {
      assert forall i | 1 <= i < |what| :: name[i] == what[i];
      assert name[0] == ToUpper(what[0]);
    }
    RenderJsxTemplate(name);
  }

  // ----- activation -----

  const HelloWorldCommand: string := "extension.helloWorld"
  const ExplorerContextCommand: string := "extension.explorerContext"

  /** The command identifiers `activate` pushes onto the subscriptions. */
  function Activate(): (ids: seq<string>)
    ensures |ids| == 2 && ids[0] != ids[1]
    ensures HelloWorldCommand in ids && ExplorerContextCommand in ids
  {
    [HelloWorldCommand, ExplorerContextCommand]
  }

  /** `activate` registers exactly two commands, and the generator's
      `extension.createJsxComponent` is not one of them. */
  lemma ActivateOmitsGenerator()
    ensures |Activate()| == 2
    ensures CreateCommandId !in Activate()
  {
    assert CreateCommandId[10] == 'c';
    assert HelloWorldCommand[10] == 'h';
    assert ExplorerContextCommand[10] == 'e';
  }
}

=== FILE: GitOutput.dfy ===
/** The two pure readings of git's output in src/components/GitBranchManager.ts:
    the branch list built from `git branch -a`, and the conflict test on
    `git status --porcelain`. */
module GitOutput {
  import opened Host
  import opened Text

  // ----- one line of `git branch -a` -----

  /** What `^\*?\s+` can match: nothing at all, white space, or `*` followed
      by white space. */
  predicate MarkerShape(m: string) {
    m == [] || (|m| > 0 && AllSpace(m)) || (|m| >= 2 && m[0] == '*' && AllSpace(m[1..]))
  }

  /** The line starts with a match of `^\*?\s+`. */
  predicate HasMarker(line: string) {
    (|line| > 0 && IsSpace(line[0])) || (|line| >= 2 && line[0] == '*' && IsSpace(line[1]))
  }

  /** `line.replace(/^\*?\s+/, '')`: an optional `*` followed by at least one
      white-space character, all removed from the front. When `*` is not
      followed by white space the regular expression backtracks to match
      without the `*`, which then fails, so the line is kept as it is. */
  function StripMarker(line: string): (r: string)
    // the result is what follows a removed front part
    ensures |r| <= |line| && r == line[|line| - |r|..]
    // the removed part is one match of the pattern, or nothing
    ensures MarkerShape(line[..|line| - |r|])
    // something is removed exactly when the pattern matches at the front
    ensures |r| < |line| <==> HasMarker(line)
    // the match is as long as it can be: no white space is left in front
    ensures |r| < |line| ==> r == [] || !IsSpace(r[0])
  {
    if |line| >= 2 && line[0] == '*' && IsSpace(line[1]) then
      StarMarkerRemoved(line);
      TrimStart(line[1..])
    else if |line| > 0 && IsSpace(line[0]) then
      SpaceMarkerRemoved(line);
      TrimStart(line)
    else
      assert line[..0] == [];
      line
  }

  /** Trimming after `*` removes `*` and at least one white-space character. */
  lemma StarMarkerRemoved(line: string)
    requires |line| >= 2 && line[0] == '*' && IsSpace(line[1])
    ensures var r := TrimStart(line[1..]);
      && |r| < |line| - 1 && r == line[|line| - |r|..]
      && MarkerShape(line[..|line| - |r|])
  {
    var t := line[1..];
    var r := TrimStart(t);
    assert r == line[|line| - |r|..];
    var m := line[..|line| - |r|];
    assert m[1..] == t[..|t| - |r|];
  }

  /** Trimming a line that starts with white space removes at least one
      character, and only white space. */
  lemma SpaceMarkerRemoved(line: string)
    requires |line| > 0 && IsSpace(line[0])
    ensures var r := TrimStart(line);
      |r| < |line| && MarkerShape(line[..|line| - |r|])
  {
    var r := TrimStart(line);
  }

  const RemotePrefix: string := "remotes/origin/"

  /** `.replace(/^remotes\/origin\//, '')`. */
  function StripRemotePrefix(b: string): (r: string)
    ensures StartsWith(b, RemotePrefix) ==> b == RemotePrefix + r
    ensures !StartsWith(b, RemotePrefix) ==> r == b
  {
    if StartsWith(b, RemotePrefix) then b[|RemotePrefix|..] else b
  }

  /** A line of the listing reduced to a branch name: what is left after the
      marker and then the remote prefix are removed from its front. */
  function Normalize(line: string): (b: string)
    ensures |b| <= |line| && b == line[|line| - |b|..]
    ensures !HasMarker(line) && !StartsWith(line, RemotePrefix) ==> b == line
  {
    var m := StripMarker(line);
    var b := StripRemotePrefix(m);
    assert b == m[|m| - |b|..];
    assert line[|line| - |m|..][|m| - |b|..] == line[|line| - |b|..];
    b
  }

  /** `branch && !branch.includes('HEAD')`. */
  predicate Keep(b: string) {
    b != "" && !Contains(b, "HEAD")
  }

  /** A name as git prints it: non-empty, not starting with white space and
      not itself starting with the remote prefix. */
  predicate PlainName(b: string) {
    |b| > 0 && !IsSpace(b[0]) && !StartsWith(b, RemotePrefix)
  }

  /** The current branch (`* b`), another local branch (`  b`) and its remote
      copy (`  remotes/origin/b`) all reduce to the same name. */
  lemma MarkersCollapse(b: string)
    requires PlainName(b)
    ensures Normalize("* " + b) == b
    ensures Normalize("  " + b) == b
    ensures Normalize("  " + RemotePrefix + b) == b
  {
    assert Normalize("* " + b) == b by { CurrentMarker(b); }
    assert Normalize("  " + b) == b by { LocalMarker(b); }
    assert Normalize("  " + RemotePrefix + b) == b by { RemoteMarker(b); }
  }

  lemma LocalMarker(b: string)
    requires PlainName(b)
    ensures Normalize("  " + b) == b
  {
    IndentedName("  ", b);
  }

  lemma RemoteMarker(b: string)
    requires PlainName(b)
    ensures Normalize("  " + RemotePrefix + b) == b
  {
    var rb := RemotePrefix + b;
    assert "  " + RemotePrefix + b == "  " + rb;
    assert StripMarker("  " + rb) == rb by {
      assert rb[0] == RemotePrefix[0];
      IndentedName("  ", rb);
    }
    assert rb[..|RemotePrefix|] == RemotePrefix;
    assert rb[|RemotePrefix|..] == b;
  }

  lemma CurrentMarker(b: string)
    requires PlainName(b)
    ensures Normalize("* " + b) == b
  {
    var line := "* " + b;
    assert StripMarker(line) == b by {
      assert line[0] == '*' && line[1] == ' ';
      assert line[1..] == " " + b;
      TrimStartAfterSpace(" ", b);
    }
  }

  /** A name behind white space: the white space goes and the name stays. */
  lemma IndentedName(w: string, b: string)
    requires |w| > 0 && AllSpace(w) && |b| > 0 && !IsSpace(b[0])
    ensures StripMarker(w + b) == TrimStart(w + b) == b
  {
    assert (w + b)[0] == w[0];
    TrimStartAfterSpace(w, b);
  }

  /** The regular expression needs white space after `*`: `*b` is kept whole. */
  lemma StarWithoutSpaceIsKept(b: string)
    requires |b| > 0 && !IsSpace(b[0])
    ensures StripMarker("*" + b) == "*" + b
  {
    assert ("*" + b)[1] == b[0];
  }

  // ----- the list -----

  /** `xs.map(f)`. */
  function Map(xs: seq<string>, f: string -> string): (r: seq<string>)
    ensures |r| == |xs|
    ensures forall i | 0 <= i < |xs| :: r[i] == f(xs[i])
  {
    seq(|xs|, i requires 0 <= i < |xs| => f(xs[i]))
  }

  /** Mapping over two elements gives the two images. */
  lemma MapPair(f: string -> string, x: string, y: string)
    ensures Map([x, y], f) == [f(x), f(y)]
  {
    var r := Map([x, y], f);
    assert r[0] == f(x) && r[1] == f(y);
  }

  /** `lines.map(Normalize)`. */
  function NormalizeAll(lines: seq<string>): (r: seq<string>)
    ensures |r| == |lines|
    ensures forall i | 0 <= i < |lines| :: r[i] == Normalize(lines[i])
  {
    Map(lines, Normalize)
  }

  /** `names.filter(Keep)`: the kept names, in their order. */
  function KeepAll(names: seq<string>): (r: seq<string>)
    ensures forall b :: b in r <==> b in names && Keep(b)
    ensures forall b :: multiset(r)[b] == if Keep(b) then multiset(names)[b] else 0
    ensures |r| <= |names|
  {
    if |names| == 0 then []
    else if Keep(names[0]) then
      assert names == [names[0]] + names[1..];
      [names[0]] + KeepAll(names[1..])
    else
      assert names == [names[0]] + names[1..];
      KeepAll(names[1..])
  }

  /** The filter keeps order: filtering a concatenation concatenates the
      filtered parts. */
  lemma {:induction false} KeepAllAppend(a: seq<string>, b: seq<string>)
    ensures KeepAll(a + b) == KeepAll(a) + KeepAll(b)
    decreases |a|
  {
    if |a| > 0 {
      assert (a + b)[0] == a[0];
      assert (a + b)[1..] == a[1..] + b;
      KeepAllAppend(a[1..], b);
    } else {
      assert a + b == b;
    }
  }

  /** Two kept names come out of the filter in the order they first occur in
      its input. */
  lemma {:induction false} KeepAllKeepsOrder(xs: seq<string>, a: string, b: string)
    requires a in KeepAll(xs) && b in KeepAll(xs)
    requires IndexOf(KeepAll(xs), a) < IndexOf(KeepAll(xs), b)
    ensures IndexOf(xs, a) < IndexOf(xs, b)
    decreases |xs|
  {
    var t := xs[1..];
    if Keep(xs[0]) {
      if a != xs[0] {
        KeepAllKeepsOrder(t, a, b);
      }
    } else {
      KeepAllKeepsOrder(t, a, b);
    }
  }

  /** `arr.indexOf(x)`: the first index of `x`, or -1. */
  function IndexOf<T(==)>(xs: seq<T>, x: T): (i: int)
    ensures -1 <= i < |xs|
    ensures i == -1 <==> x !in xs
    ensures i >= 0 ==> xs[i] == x && x !in xs[..i]
  {
    if |xs| == 0 then -1
    else if xs[0] == x then 0
    else
      var k := IndexOf(xs[1..], x);
      if k == -1 then -1 else k + 1
  }

  /** `xs.filter((b, index, arr) => arr.indexOf(b) === index)` from index `k` on. */
  function FirstOccurrencesFrom<T(==,!new)>(xs: seq<T>, k: nat): (r: seq<T>)
    requires k <= |xs|
    ensures forall b :: b in r <==> b in xs && IndexOf(xs, b) >= k
    ensures forall i, j | 0 <= i < j < |r| :: IndexOf(xs, r[i]) < IndexOf(xs, r[j])
    decreases |xs| - k
  {
    if k == |xs| then []
    else
      var rest := FirstOccurrencesFrom(xs, k + 1);
      if IndexOf(xs, xs[k]) == k then [xs[k]] + rest else rest
  }

  /** The list without repeats, each name where it first occurs. */
  function FirstOccurrences<T(==,!new)>(xs: seq<T>): (r: seq<T>)
    ensures forall b :: b in r <==> b in xs
    ensures forall i, j | 0 <= i < j < |r| :: r[i] != r[j]
    ensures forall i, j | 0 <= i < j < |r| :: IndexOf(xs, r[i]) < IndexOf(xs, r[j])
  {
    var r := FirstOccurrencesFrom(xs, 0);
    assert forall i, j | 0 <= i < j < |r| :: r[i] != r[j] by {
      forall i, j | 0 <= i < j < |r| ensures r[i] != r[j] {
        assert IndexOf(xs, r[i]) < IndexOf(xs, r[j]);
      }
    }
    r
  }

  predicate Distinct<T(==)>(xs: seq<T>) {
    forall i, j | 0 <= i < j < |xs| :: xs[i] != xs[j]
  }

  /** A sequence that already has no repeats is left as it is. */
  lemma {:induction false} FirstOccurrencesOfDistinct<T(!new)>(xs: seq<T>, k: nat)
    requires k <= |xs| && Distinct(xs)
    ensures FirstOccurrencesFrom(xs, k) == xs[k..]
    decreases |xs| - k
  {
    if k < |xs| {
      assert FirstOccurrencesFrom(xs, k + 1) == xs[k + 1..] by { FirstOccurrencesOfDistinct(xs, k + 1); }
      assert IndexOf(xs, xs[k]) == k by { IndexOfDistinct(xs, k); }
      FirstOccurrencesStep(xs, k);
    }
  }

  /** An entry seen for the first time is kept in front of the rest. */
  lemma FirstOccurrencesStep<T(!new)>(xs: seq<T>, k: nat)
    requires k < |xs| && IndexOf(xs, xs[k]) == k
    requires FirstOccurrencesFrom(xs, k + 1) == xs[k + 1..]
    ensures FirstOccurrencesFrom(xs, k) == xs[k..]
  {
    assert xs[k..] == [xs[k]] + xs[k + 1..];
  }

  /** In a sequence without repeats, every entry is found where it stands. */
  lemma IndexOfDistinct<T>(xs: seq<T>, k: nat)
    requires k < |xs| && Distinct(xs)
    ensures IndexOf(xs, xs[k]) == k
  {
    var i := IndexOf(xs, xs[k]);
    assert xs[k] in xs;
    assert xs[i] == xs[k];
  }

  /** Removing repeats twice is removing them once. */
  lemma FirstOccurrencesIdempotent<T(!new)>(xs: seq<T>)
    ensures FirstOccurrences(FirstOccurrences(xs)) == FirstOccurrences(xs)
  {
    var r := FirstOccurrences(xs);
    FirstOccurrencesOfDistinct(r, 0);
    assert r[0..] == r;
  }

  /** The entries of `r` appear in the order in which each first occurs in `xs`. */
  predicate InFirstOccurrenceOrder(r: seq<string>, xs: seq<string>) {
    forall i, j | 0 <= i < j < |r| :: IndexOf(xs, r[i]) < IndexOf(xs, r[j])
  }

  /** The branch list of `getAllBranches` from the text git printed. */
  function ParseBranches(stdout: string): (r: seq<string>)
    ensures forall i | 0 <= i < |r| :: Keep(r[i])
    ensures forall i, j | 0 <= i < j < |r| :: r[i] != r[j]
    ensures forall b :: b in r <==> Keep(b) && b in NormalizeAll(Split(stdout, '\n'))
    // names come in the order of their first line in the listing
    ensures InFirstOccurrenceOrder(r, NormalizeAll(Split(stdout, '\n')))
  {
    var names := NormalizeAll(Split(stdout, '\n'));
    UniqueKeptInOrder(names);
    FirstOccurrences(KeepAll(names))
  }

  /** Filtering and then removing repeats lists names in the order of their
      first occurrence in the input. */
  lemma UniqueKeptInOrder(names: seq<string>)
    ensures InFirstOccurrenceOrder(FirstOccurrences(KeepAll(names)), names)
  {
    var kept := KeepAll(names);
    var r := FirstOccurrences(kept);
    forall i, j | 0 <= i < j < |r| ensures IndexOf(names, r[i]) < IndexOf(names, r[j]) {
      KeepAllKeepsOrder(names, r[i], r[j]);
    }
  }

  /** `getAllBranches`: a failing `git branch -a` yields the empty list. */
  function BranchesFrom(listing: Exec): (r: seq<string>)
    ensures listing.Failed? ==> r == []
    ensures listing.Ok? ==> r == ParseBranches(listing.stdout)
  {
    match listing
    case Ok(out) => ParseBranches(out)
    case Failed(_) => []
  }

  lemma SplitTwoLines(l1: string, l2: string)
    requires '\n' !in l1 && '\n' !in l2
    ensures Split(l1 + "\n" + l2, '\n') == [l1, l2]
  {
    assert [l1, l2][1..] == [l2];
    assert Join([l1, l2], "\n") == l1 + "\n" + l2;
    SplitJoin([l1, l2], '\n');
  }

  lemma FirstOccurrencesOfPair<T(!new)>(b: T)
    ensures FirstOccurrences([b, b]) == [b]
  {
    var xs := [b, b];
    assert IndexOf(xs, b) == 0;
    assert FirstOccurrencesFrom(xs, 2) == [];
    assert FirstOccurrencesFrom(xs, 1) == [];
  }

  /** The local and the remote copy of a branch give one entry. */
  lemma LocalAndRemoteGiveOneEntry(b: string)
    requires PlainName(b) && Keep(b) && '\n' !in b
    ensures ParseBranches("* " + b + "\n" + "  " + RemotePrefix + b) == [b]
  {
    var l1 := "* " + b;
    var l2 := "  " + RemotePrefix + b;
    assert "* " + b + "\n" + "  " + RemotePrefix + b == l1 + "\n" + l2;
    assert '\n' !in l1 && '\n' !in l2 by {
      assert '\n' !in "* " && '\n' !in "  " && '\n' !in RemotePrefix;
    }
    MarkersCollapse(b);
    TwoLinesOfOneName(l1, l2, b);
  }

  /** Two lines that both normalise to a kept name give that name once. */
  lemma TwoLinesOfOneName(l1: string, l2: string, b: string)
    requires '\n' !in l1 && '\n' !in l2
    requires Normalize(l1) == b && Normalize(l2) == b && Keep(b)
    ensures ParseBranches(l1 + "\n" + l2) == [b]
  {
    assert Split(l1 + "\n" + l2, '\n') == [l1, l2] by { SplitTwoLines(l1, l2); }
    NormalizePair(l1, l2);
    KeepPair(b);
    FirstOccurrencesOfPair(b);
  }

  lemma NormalizePair(l1: string, l2: string)
    ensures NormalizeAll([l1, l2]) == [Normalize(l1), Normalize(l2)]
  {
    MapPair(Normalize, l1, l2);
  }

  lemma KeepPair(b: string)
    requires Keep(b)
    ensures KeepAll([b, b]) == [b, b]
  {
    assert [b, b][1..] == [b];
  }

  /** A listing of the current branch alone gives that branch. */
  lemma CurrentBranchAlone(b: string)
    requires PlainName(b) && Keep(b) && '\n' !in b
    ensures ParseBranches("* " + b) == [b]
  {
    var l := "* " + b;
    assert Split(l, '\n') == [l] by {
      assert '\n' !in l;
      SplitWithoutSeparator(l, '\n');
    }
    assert NormalizeAll([l]) == [b] by {
      CurrentMarker(b);
      var r := NormalizeAll([l]);
      assert r[0] == Normalize(l);
    }
    assert KeepAll([b]) == [b];
    assert FirstOccurrences([b]) == [b] by {
      assert IndexOf([b], b) == 0;
      assert FirstOccurrencesFrom([b], 1) == [];
    }
  }

  // ----- `git status --porcelain` -----

  /** The status codes the extension takes as a conflict. */
  const ConflictCodes: seq<string> := ["UU", "AA", "DD"]

  /** `stdout.includes('UU') || stdout.includes('AA') || stdout.includes('DD')`. */
  predicate HasConflict(status: string) {
    Contains(status, "UU") || Contains(status, "AA") || Contains(status, "DD")
  }

  /** `checkMergeConflict`: a failing status command counts as no conflict. */
  function CheckConflict(status: Exec): (r: bool)
    ensures status.Failed? ==> !r
    ensures status.Ok? ==> (r <==> exists c, i | c in ConflictCodes :: OccursAt(status.stdout, c, i))
  {
    match status
    case Ok(out) =>
      ConflictIffCodeOccurs(out);
      HasConflict(out)
    case Failed(_) => false
  }

  lemma ConflictIffCodeOccurs(s: string)
    ensures HasConflict(s) <==> exists c, i | c in ConflictCodes :: OccursAt(s, c, i)
  {
    ContainsIffOccurs(s, "UU");
    ContainsIffOccurs(s, "AA");
    ContainsIffOccurs(s, "DD");
    if c, i :| c in ConflictCodes && OccursAt(s, c, i) {
      assert c == "UU" || c == "AA" || c == "DD";
    }
  }

  /** More status text never hides a conflict. */
  lemma ConflictMonotone(u: string, s: string, w: string)
    requires HasConflict(s)
    ensures HasConflict(u + s + w)
  {
    if Contains(s, "UU") {
      ContainsMonotone(u, s, w, "UU");
    } else if Contains(s, "AA") {
      ContainsMonotone(u, s, w, "AA");
    } else {
      ContainsMonotone(u, s, w, "DD");
    }
  }

  /** The test is on the whole text, not on the status column: a file whose
      name holds `AA` reads as a conflict, and the unmerged states `UD`,
      `DU`, `AU` and `UA` do not. */
  lemma ConflictTestIsTextual()
    ensures HasConflict(" M AA.txt")
    ensures !HasConflict("UD a.ts")
  {
    assert OccursAt(" M AA.txt", "AA", 3);
    ContainsIffOccurs(" M AA.txt", "AA");
    var t := "UD a.ts";
    forall c, i | c in ConflictCodes ensures !OccursAt(t, c, i) {
      assert c[0] == c[1];
    }
    ConflictIffCodeOccurs(t);
  }
}

=== FILE: Host.dfy ===
/** Values the editor host and the operating system hand back to the extension:
    an optional answer from a prompt, a notification shown to the user, and the
    outcome of running an external command. */
module Host {

  /** `undefined` or a value, as returned by an input box or a quick pick. */
  datatype Option<+T> = None | Some(value: T)

  /** A notification popped up by the editor. */
  datatype Notice =
    | Info(text: string)
    | Warning(text: string)
    | Error(text: string)

  /** Outcome of one `child_process.exec` call: its standard output, or the
      rejection of the promise (non-zero exit status or spawn error). */
  datatype Exec = Ok(stdout: string) | Failed(reason: string)
}

=== FILE: MergeFlow.dfy ===
/** The automatic merge of src/components/GitBranchManager.ts: a fixed chain of
    git commands run one after another, each awaited, the first rejection
    ending the chain. Git itself is an oracle that answers each command given
    the commands issued before it. */
module MergeFlow {
  import opened Host
  import opened Text
  import opened GitOutput

  /** The git command lines the extension runs. */
  datatype Command =
    | RevParse                  // git rev-parse --abbrev-ref HEAD
    | ListBranches              // git branch -a
    | Checkout(branch: string)  // git checkout <branch>
    | Pull(branch: string)      // git pull origin <branch>
    | Merge(source: string)     // git merge <source>
    | Status                    // git status --porcelain
    | Push(branch: string)      // git push origin <branch>:<branch>

  /** Commands that change the repository or the remote. */
  predicate Mutating(c: Command) {
    c.Checkout? || c.Pull? || c.Merge? || c.Push?
  }

  /** Git as seen by the extension: the outcome of a command, given every
      command issued before it. */
  type Git = (seq<Command>, Command) -> Exec

  /** One awaited step: a command whose rejection aborts, or the conflict
      check, which never rejects but raises when the status shows a conflict. */
  datatype Step = Do(cmd: Command) | CheckNoConflict(source: string, target: string)

  function StepCommand(s: Step): Command {
    match s
    case Do(c) => c
    case CheckNoConflict(_, _) => Status
  }

  function Commands(plan: seq<Step>): (cs: seq<Command>)
    ensures |cs| == |plan|
    ensures forall i | 0 <= i < |plan| :: cs[i] == StepCommand(plan[i])
  {
    if |plan| == 0 then [] else [StepCommand(plan[0])] + Commands(plan[1..])
  }

  /** Why a chain stopped: a command rejected, or the conflict check fired. */
  datatype Failure = Rejected(reason: string) | Conflicted(source: string, target: string)

  /** The commands issued so far, and the failure that ended the chain, if any. */
  datatype Trace = Trace(issued: seq<Command>, failure: Option<Failure>)

  /** The step goes through after `issued`. */
  predicate StepSucceeds(git: Git, issued: seq<Command>, step: Step) {
    match step
    case Do(c) => git(issued, c).Ok?
    case CheckNoConflict(_, _) => !CheckConflict(git(issued, Status))
  }

  /** The next `await`: nothing once the chain has failed. */
  function Issue(git: Git, t: Trace, step: Step): (r: Trace)
    ensures t.failure.Some? ==> r == t
    ensures t.failure == None ==> r.issued == t.issued + [StepCommand(step)]
    ensures t.failure == None ==> (r.failure == None <==> StepSucceeds(git, t.issued, step))
    ensures Extends(t, r, 1)
  {
    if t.failure.Some? then t
    else
      var c := StepCommand(step);
      var failure :=
        match step
        case Do(_) => (var e := git(t.issued, c); if e.Failed? then Some(Rejected(e.reason)) else None)
        case CheckNoConflict(s, tgt) => if CheckConflict(git(t.issued, Status)) then Some(Conflicted(s, tgt)) else None;
      Trace(t.issued + [c], failure)
  }

  /** `r` continues the history of `t` with at most `n` more commands. */
  predicate Extends(t: Trace, r: Trace, n: nat) {
    |t.issued| <= |r.issued| <= |t.issued| + n && r.issued[..|t.issued|] == t.issued
  }

  lemma ExtendsTrans(t: Trace, u: Trace, r: Trace, m: nat, n: nat)
    requires Extends(t, u, m) && Extends(u, r, n)
    ensures Extends(t, r, m + n)
  {
    assert r.issued[..|t.issued|] == r.issued[..|u.issued|][..|t.issued|];
  }

  // ----- the chain as the source builds it -----

  /** `switchToBranch`: `git checkout b`, awaited. */
  function SwitchToBranch(git: Git, t: Trace, b: string): (r: Trace)
    ensures t.failure.Some? ==> r == t
    ensures t.failure == None ==> r.issued == t.issued + [Checkout(b)]
    ensures t.failure == None ==> (r.failure == None <==> git(t.issued, Checkout(b)).Ok?)
    ensures t.failure == None && git(t.issued, Checkout(b)).Failed? ==>
      r.failure == Some(Rejected(git(t.issued, Checkout(b)).reason))
  {
    Issue(git, t, Do(Checkout(b)))
  }

  /** `switchAndPullBranch`: checkout, then `git pull origin b`; a failed
      checkout skips the pull. */
  function SwitchAndPullBranch(git: Git, t: Trace, b: string): (r: Trace)
    ensures t.failure.Some? ==> r == t
    ensures t.failure == None ==>
      (r.failure == None <==> git(t.issued, Checkout(b)).Ok? && git(t.issued + [Checkout(b)], Pull(b)).Ok?)
    ensures t.failure == None && git(t.issued, Checkout(b)).Failed? ==> r.issued == t.issued + [Checkout(b)]
    ensures t.failure == None && git(t.issued, Checkout(b)).Ok? ==> r.issued == t.issued + [Checkout(b), Pull(b)]
  {
    Issue(git, SwitchToBranch(git, t, b), Do(Pull(b)))
  }

  /** The five commands of a merge into `target`. */
  function TargetCommands(source: string, target: string): seq<Command> {
    [Checkout(target), Pull(target), Merge(source), Status, Push(target)]
  }

  /** `mergeToTargetBranch`: checkout, pull, merge, the conflict check, push. */
  function MergeToTargetBranch(git: Git, t: Trace, source: string, target: string): (r: Trace)
    ensures t.failure.Some? ==> r == t
    // the commands issued extend the history by at most the five of this step
    ensures Extends(t, r, 5)
    // a clean run has issued all five
    ensures r.failure == None ==> r.issued == t.issued + TargetCommands(source, target)
    // a conflict found here names this merge
    ensures t.failure == None && r.failure.Some? && r.failure.value.Conflicted? ==>
      r.failure.value == Conflicted(source, target)
  {
    var switched := SwitchToBranch(git, t, target);
    var pulled := Issue(git, switched, Do(Pull(target)));
    var merged := Issue(git, pulled, Do(Merge(source)));
    var checked := Issue(git, merged, CheckNoConflict(source, target));
    var r := Issue(git, checked, Do(Push(target)));
    assert Extends(t, r, 5) by {
      ExtendsTrans(t, switched, pulled, 1, 1);
      ExtendsTrans(t, pulled, merged, 2, 1);
      ExtendsTrans(t, merged, checked, 3, 1);
      ExtendsTrans(t, checked, r, 4, 1);
    }
    r
  }

  const Dev: string := "dev"
  const Sit: string := "sit"

  /** `executeMergeFlow`: the chosen branch into `dev`, `dev` into `sit`, and
      back to the branch the user started on. */
  function ExecuteMergeFlow(git: Git, t: Trace, b: string, original: string): (r: Trace)
    ensures t.failure.Some? ==> r == t
    ensures Extends(t, r, 13)
    ensures r.failure == None ==>
      r.issued == t.issued + [Checkout(b), Pull(b)] + TargetCommands(b, Dev) + TargetCommands(Dev, Sit) + [Checkout(original)]
  {
    var onBranch := SwitchAndPullBranch(git, t, b);
    var intoDev := MergeToTargetBranch(git, onBranch, b, Dev);
    var intoSit := MergeToTargetBranch(git, intoDev, Dev, Sit);
    var r := SwitchToBranch(git, intoSit, original);
    assert Extends(t, r, 13) by {
      ExtendsTrans(t, SwitchToBranch(git, t, b), onBranch, 1, 1);
      ExtendsTrans(t, onBranch, intoDev, 2, 5);
      ExtendsTrans(t, intoDev, intoSit, 7, 5);
      ExtendsTrans(t, intoSit, r, 12, 1);
    }
    assert r.failure == None ==> intoSit.failure == None && intoDev.failure == None && onBranch.failure == None;
    r
  }

  // ----- the same chain as a plan -----

  function MergeStepPlan(source: string, target: string): seq<Step> {
    [Do(Checkout(target)), Do(Pull(target)), Do(Merge(source)), CheckNoConflict(source, target), Do(Push(target))]
  }

  /** The thirteen steps of a complete run. */
  function MergePlan(b: string, original: string): seq<Step> {
    [ Do(Checkout(b)), Do(Pull(b)),
      Do(Checkout(Dev)), Do(Pull(Dev)), Do(Merge(b)), CheckNoConflict(b, Dev), Do(Push(Dev)),
      Do(Checkout(Sit)), Do(Pull(Sit)), Do(Merge(Dev)), CheckNoConflict(Dev, Sit), Do(Push(Sit)),
      Do(Checkout(original)) ]
  }

  /** Runs a plan step by step; once a step fails the rest is skipped. */
  function RunPlan(git: Git, t: Trace, plan: seq<Step>): Trace
    decreases |plan|
  {
    if |plan| == 0 then t else RunPlan(git, Issue(git, t, plan[0]), plan[1..])
  }

  /** How many leading steps of `plan` go through when run after `h`. */
  function Completed(git: Git, h: seq<Command>, plan: seq<Step>): (k: nat)
    ensures k <= |plan|
    decreases |plan|
  {
    if |plan| == 0 || !StepSucceeds(git, h, plan[0]) then 0
    else 1 + Completed(git, h + [StepCommand(plan[0])], plan[1..])
  }

  /** The commands a run of `plan` after `h` issues: everything up to and
      including the first failing step. */
  function Reached(git: Git, h: seq<Command>, plan: seq<Step>): (n: nat)
    ensures n <= |plan|
  {
    var k := Completed(git, h, plan);
    if k == |plan| then k else k + 1
  }

  lemma {:induction false} RunPlanOfFailed(git: Git, t: Trace, plan: seq<Step>)
    requires t.failure.Some?
    ensures RunPlan(git, t, plan) == t
    decreases |plan|
  {
    if |plan| > 0 {
      RunPlanOfFailed(git, t, plan[1..]);
    }
  }

  /** `Completed` counts exactly the leading steps that go through: each of
      them does, and the step after them does not. */
  lemma {:induction false} CompletedIsFirstFailure(git: Git, h: seq<Command>, plan: seq<Step>)
    ensures var k := Completed(git, h, plan);
      && (forall j | 0 <= j < k :: StepSucceeds(git, h + Commands(plan)[..j], plan[j]))
      && (k < |plan| ==> !StepSucceeds(git, h + Commands(plan)[..k], plan[k]))
    decreases |plan|
  {
    forall j | 0 <= j < Completed(git, h, plan)
      ensures StepSucceeds(git, h + Commands(plan)[..j], plan[j])
    {
      CompletedPrefix(git, h, plan, j);
    }
    if Completed(git, h, plan) < |plan| {
      CompletedStops(git, h, plan);
    }
  }

  lemma {:induction false} CompletedPrefix(git: Git, h: seq<Command>, plan: seq<Step>, j: nat)
    requires j < Completed(git, h, plan)
    ensures StepSucceeds(git, h + Commands(plan)[..j], plan[j])
    decreases j
  {
    assert StepSucceeds(git, h, plan[0]);
    if j == 0 {
      assert h + Commands(plan)[..0] == h;
    } else {
      var tail := plan[1..];
      CompletedPrefix(git, h + [StepCommand(plan[0])], tail, j - 1);
      IssuedAfterSuccess(h, plan, j - 1);
      assert plan[j] == tail[j - 1];
    }
  }

  lemma {:induction false} CompletedStops(git: Git, h: seq<Command>, plan: seq<Step>)
    requires Completed(git, h, plan) < |plan|
    ensures !StepSucceeds(git, h + Commands(plan)[..Completed(git, h, plan)], plan[Completed(git, h, plan)])
    decreases |plan|
  {
    if StepSucceeds(git, h, plan[0]) {
      var k := Completed(git, h, plan);
      var tail := plan[1..];
      CompletedStops(git, h + [StepCommand(plan[0])], tail);
      IssuedAfterSuccess(h, plan, k - 1);
      assert plan[k] == tail[k - 1];
    } else {
      assert h + Commands(plan)[..0] == h;
    }
  }

  /** A run of `plan` fails exactly when some step did not go through. */
  lemma {:induction false} RunPlanFailsIff(git: Git, h: seq<Command>, plan: seq<Step>)
    ensures RunPlan(git, Trace(h, None), plan).failure == None <==> Completed(git, h, plan) == |plan|
    decreases |plan|
  {
    if |plan| > 0 {
      var c := StepCommand(plan[0]);
      var t1 := Issue(git, Trace(h, None), plan[0]);
      if StepSucceeds(git, h, plan[0]) {
        assert t1 == Trace(h + [c], None);
        RunPlanFailsIff(git, h + [c], plan[1..]);
      } else {
        RunPlanOfFailed(git, t1, plan[1..]);
      }
    }
  }

  lemma ReachedAfterSuccess(git: Git, h: seq<Command>, plan: seq<Step>)
    requires |plan| > 0 && StepSucceeds(git, h, plan[0])
    ensures Reached(git, h, plan) == Reached(git, h + [StepCommand(plan[0])], plan[1..]) + 1
  {}

  lemma IssuedAfterSuccess(h: seq<Command>, plan: seq<Step>, m: nat)
    requires 0 < |plan| && m <= |plan| - 1
    ensures h + Commands(plan)[..m + 1] == (h + [StepCommand(plan[0])]) + Commands(plan[1..])[..m]
  {
    assert Commands(plan) == [StepCommand(plan[0])] + Commands(plan[1..]);
    PrefixAfterHead(h, StepCommand(plan[0]), Commands(plan[1..]), m);
  }

  /** Taking one more element of a list that starts with `c` moves `c` onto
      what came before. */
  lemma PrefixAfterHead<T>(h: seq<T>, c: T, y: seq<T>, m: nat)
    requires m <= |y|
    ensures h + ([c] + y)[..m + 1] == (h + [c]) + y[..m]
  {
    assert ([c] + y)[..m + 1] == [c] + y[..m];
  }

  /** A run of `plan` issues the plan up to and including its first failing
      step. */
  lemma {:induction false} RunPlanIssuesReached(git: Git, h: seq<Command>, plan: seq<Step>)
    ensures RunPlan(git, Trace(h, None), plan).issued == h + Commands(plan)[..Reached(git, h, plan)]
    decreases |plan|
  {
    if |plan| == 0 {
      assert h + Commands(plan)[..0] == h;
    } else {
      var t1 := Issue(git, Trace(h, None), plan[0]);
      if StepSucceeds(git, h, plan[0]) {
        var h1 := h + [StepCommand(plan[0])];
        assert t1 == Trace(h1, None);
        RunPlanIssuesReached(git, h1, plan[1..]);
        ReachedAfterSuccess(git, h, plan);
        IssuedAfterSuccess(h, plan, Reached(git, h1, plan[1..]));
      } else {
        RunPlanOfFailed(git, t1, plan[1..]);
        IssuedAfterSuccess(h, plan, 0);
      }
    }
  }

  lemma {:induction false} RunPlanAppend(git: Git, t: Trace, p: seq<Step>, q: seq<Step>)
    ensures RunPlan(git, t, p + q) == RunPlan(git, RunPlan(git, t, p), q)
    decreases |p|
  {
    if |p| > 0 {
      assert (p + q)[0] == p[0];
      assert (p + q)[1..] == p[1..] + q;
      RunPlanAppend(git, Issue(git, t, p[0]), p[1..], q);
    } else {
      assert p + q == q;
    }
  }

  lemma RunPlanSkip(git: Git, t: Trace, plan: seq<Step>, i: nat)
    requires i < |plan|
    ensures RunPlan(git, t, plan[i..]) == RunPlan(git, Issue(git, t, plan[i]), plan[i + 1..])
  {
    assert plan[i..][0] == plan[i];
    assert plan[i..][1..] == plan[i + 1..];
  }

  /** The source's chain for one target is that target's five steps. */
  lemma MergeStepRunsPlan(git: Git, t: Trace, source: string, target: string)
    ensures MergeToTargetBranch(git, t, source, target) == RunPlan(git, t, MergeStepPlan(source, target))
  {
    var p := MergeStepPlan(source, target);
    var t1 := Issue(git, t, p[0]);
    var t2 := Issue(git, t1, p[1]);
    var t3 := Issue(git, t2, p[2]);
    var t4 := Issue(git, t3, p[3]);
    var t5 := Issue(git, t4, p[4]);
    assert p[0..] == p;
    RunPlanSkip(git, t, p, 0);
    RunPlanSkip(git, t1, p, 1);
    RunPlanSkip(git, t2, p, 2);
    RunPlanSkip(git, t3, p, 3);
    RunPlanSkip(git, t4, p, 4);
    assert p[5..] == [];
  }

  /** The source's chain is the thirteen-step plan run step by step. */
  lemma ExecuteMergeFlowRunsPlan(git: Git, t: Trace, b: string, original: string)
    ensures ExecuteMergeFlow(git, t, b, original) == RunPlan(git, t, MergePlan(b, original))
  {
    var head: seq<Step> := [Do(Checkout(b)), Do(Pull(b))];
    var dev := MergeStepPlan(b, Dev);
    var sit := MergeStepPlan(Dev, Sit);
    var back: seq<Step> := [Do(Checkout(original))];
    assert MergePlan(b, original) == head + dev + sit + back;
    var t1 := Issue(git, t, head[0]);
    var onBranch := SwitchAndPullBranch(git, t, b);
    assert RunPlan(git, t, head) == onBranch by {
      assert head[0..] == head;
      RunPlanSkip(git, t, head, 0);
      RunPlanSkip(git, t1, head, 1);
      assert head[2..] == [];
    }
    var intoDev := MergeToTargetBranch(git, onBranch, b, Dev);
    MergeStepRunsPlan(git, onBranch, b, Dev);
    var intoSit := MergeToTargetBranch(git, intoDev, Dev, Sit);
    MergeStepRunsPlan(git, intoDev, Dev, Sit);
    assert RunPlan(git, intoSit, back) == SwitchToBranch(git, intoSit, original) by {
      assert back[0..] == back;
      RunPlanSkip(git, intoSit, back, 0);
      assert back[1..] == [];
    }
    RunPlanAppend(git, t, head, dev);
    RunPlanAppend(git, t, head + dev, sit);
    RunPlanAppend(git, t, head + dev + sit, back);
  }

  /** The commands of the plan, in order. */
  lemma MergePlanCommands(b: string, original: string)
    ensures Commands(MergePlan(b, original)) ==
      [ Checkout(b), Pull(b),
        Checkout(Dev), Pull(Dev), Merge(b), Status, Push(Dev),
        Checkout(Sit), Pull(Sit), Merge(Dev), Status, Push(Sit),
        Checkout(original) ]
  {}

  /** A run of `executeMergeFlow` after `h` issues the plan up to its first
      failing step and succeeds exactly when all thirteen steps went through.
      A failed run therefore never reaches a step past the failing one: the
      checkout back to `original` is only issued once both pushes went through. */
  lemma MergeFlowFollowsPlan(git: Git, h: seq<Command>, b: string, original: string)
    ensures var r := ExecuteMergeFlow(git, Trace(h, None), b, original);
      var plan := MergePlan(b, original);
      && r.issued == h + Commands(plan)[..Reached(git, h, plan)]
      && (r.failure == None <==> Completed(git, h, plan) == 13)
      && (r.failure == None ==> r.issued == h + Commands(plan))
      && (r.failure.Some? ==> |r.issued| - |h| <= 12 || Completed(git, h, plan) == 12)
  {
    ExecuteMergeFlowRunsPlan(git, Trace(h, None), b, original);
    RunPlanIssuesReached(git, h, MergePlan(b, original));
    RunPlanFailsIff(git, h, MergePlan(b, original));
    assert Commands(MergePlan(b, original))[..13] == Commands(MergePlan(b, original));
  }

  /** Every push in the plan comes right after a conflict check. */
  predicate GuardsPushes(plan: seq<Step>) {
    forall j | 0 <= j < |plan| && StepCommand(plan[j]).Push? :: j > 0 && plan[j - 1].CheckNoConflict?
  }

  lemma MergePlanGuardsPushes(b: string, original: string)
    ensures GuardsPushes(MergePlan(b, original))
  {
    var plan := MergePlan(b, original);
    forall j | 0 <= j < |plan| && StepCommand(plan[j]).Push?
      ensures j > 0 && plan[j - 1].CheckNoConflict?
    {
      assert j == 6 || j == 11 by {
        assert forall i | 0 <= i < |plan| && i != 6 && i != 11 :: !StepCommand(plan[i]).Push?;
      }
    }
  }

  /** In a run of a plan whose pushes follow conflict checks, every push is
      issued right after a status whose text showed no conflict. */
  lemma RunPlanPushesAfterCleanCheck(git: Git, h: seq<Command>, plan: seq<Step>)
    requires GuardsPushes(plan)
    ensures var r := RunPlan(git, Trace(h, None), plan);
      forall k | |h| <= k < |r.issued| && r.issued[k].Push? ::
        k > |h| && r.issued[k - 1] == Status && !CheckConflict(git(r.issued[..k - 1], Status))
  {
    var r := RunPlan(git, Trace(h, None), plan);
    RunPlanIssuesReached(git, h, plan);
    CompletedIsFirstFailure(git, h, plan);
    var cs := Commands(plan);
    var n := Reached(git, h, plan);
    forall k | |h| <= k < |r.issued| && r.issued[k].Push?
      ensures k > |h| && r.issued[k - 1] == Status && !CheckConflict(git(r.issued[..k - 1], Status))
    {
      var j := k - |h|;
      assert r.issued[k] == cs[j];
      assert j > 0 && plan[j - 1].CheckNoConflict?;
      assert r.issued[k - 1] == cs[j - 1];
      assert r.issued[..k - 1] == h + cs[..j - 1];
      assert StepSucceeds(git, h + cs[..j - 1], plan[j - 1]);
    }
  }

  /** A push is only ever issued right after a status whose text shows no
      conflict. */
  lemma PushOnlyAfterCleanCheck(git: Git, h: seq<Command>, b: string, original: string)
    ensures var r := ExecuteMergeFlow(git, Trace(h, None), b, original);
      forall k | |h| <= k < |r.issued| && r.issued[k].Push? ::
        k > |h| && r.issued[k - 1] == Status && !CheckConflict(git(r.issued[..k - 1], Status))
  {
    ExecuteMergeFlowRunsPlan(git, Trace(h, None), b, original);
    MergePlanGuardsPushes(b, original);
    RunPlanPushesAfterCleanCheck(git, h, MergePlan(b, original));
  }

  /** Where the plan merges: the chosen branch at step 4, `dev` at step 9. */
  lemma MergesInPlan(b: string, original: string)
    ensures var cs := Commands(MergePlan(b, original));
      forall j | 0 <= j < 13 && cs[j].Merge? :: (j == 4 && cs[j] == Merge(b)) || (j == 9 && cs[j] == Merge(Dev))
  {
    MergePlanCommands(b, original);
  }

  /** The order of the merges is fixed: the chosen branch into `dev` after
      `dev` was checked out, then `dev` into `sit` after `dev` was pushed and
      `sit` checked out. */
  lemma MergeOrderIsFixed(git: Git, h: seq<Command>, b: string, original: string)
    ensures var r := ExecuteMergeFlow(git, Trace(h, None), b, original);
      forall k | |h| <= k < |r.issued| && r.issued[k].Merge? ::
        || (k == |h| + 4 && r.issued[k] == Merge(b) && r.issued[|h| + 2] == Checkout(Dev))
        || (k == |h| + 9 && r.issued[k] == Merge(Dev)
            && r.issued[|h| + 6] == Push(Dev) && r.issued[|h| + 7] == Checkout(Sit))
  {
    MergeFlowFollowsPlan(git, h, b, original);
    MergesOfPrefix(h, b, original, Reached(git, h, MergePlan(b, original)));
  }

  /** The merges in any prefix of the plan's commands, issued after `h`. */
  lemma MergesOfPrefix(h: seq<Command>, b: string, original: string, n: nat)
    requires n <= 13
    ensures var issued := h + Commands(MergePlan(b, original))[..n];
      forall k | |h| <= k < |issued| && issued[k].Merge? ::
        || (k == |h| + 4 && issued[k] == Merge(b) && issued[|h| + 2] == Checkout(Dev))
        || (k == |h| + 9 && issued[k] == Merge(Dev)
            && issued[|h| + 6] == Push(Dev) && issued[|h| + 7] == Checkout(Sit))
  {
    var cs := Commands(MergePlan(b, original));
    var issued := h + cs[..n];
    assert cs[2] == Checkout(Dev) && cs[6] == Push(Dev) && cs[7] == Checkout(Sit) by {
      MergePlanCommands(b, original);
    }
    MergesInPlan(b, original);
    forall k | |h| <= k < |issued| && issued[k].Merge?
      ensures || (k == |h| + 4 && issued[k] == Merge(b) && issued[|h| + 2] == Checkout(Dev))
              || (k == |h| + 9 && issued[k] == Merge(Dev)
                  && issued[|h| + 6] == Push(Dev) && issued[|h| + 7] == Checkout(Sit))
    {
      assert issued[k] == cs[k - |h|];
      assert issued[|h| + 2] == cs[2];
      if k == |h| + 9 {
        assert issued[|h| + 6] == cs[6];
        assert issued[|h| + 7] == cs[7];
      }
    }
  }

  // ----- autoMergeBranch -----

  /** What the quick pick returned: dismissed, or the entry at `index`. */
  datatype Pick = Dismissed | Picked(index: nat)

  const ConfirmLabel: string := "确认合并"
  const FailurePrefix: string := "合并失败: "
  const SuccessMessage: string := "🎉 分支自动合并成功!"

  /** The string form of what the chain threw. */
  function FailureText(f: Failure): string {
    match f
    case Rejected(reason) => reason
    case Conflicted(s, t) => "Error: 合并 " + s + " 到 " + t + " 时发生冲突，请手动解决"
  }

  /** Everything `autoMergeBranch` does that can be observed: the commands
      issued and the notifications shown. */
  datatype Outcome = Outcome(issued: seq<Command>, notices: seq<Notice>)

  /** The history after reading the current branch and the branch list. */
  const Prelude: seq<Command> := [RevParse, ListBranches]

  /** The entries offered by the quick pick. */
  function Offered(git: Git): seq<string> {
    BranchesFrom(git([RevParse], ListBranches))
  }

  /** The pick names an offered entry (the quick pick only returns those). */
  predicate PickInRange(git: Git, pick: Pick) {
    pick.Picked? ==> pick.index < |Offered(git)|
  }

  /** `autoMergeBranch`: `answer` is the button chosen in the modal warning
      (None when it was dismissed). */
  function AutoMerge(git: Git, pick: Pick, answer: Option<string>): (o: Outcome)
    requires git([], RevParse).Ok? ==> PickInRange(git, pick)
    // the current branch cannot be read: nothing else is run
    ensures git([], RevParse).Failed? ==>
      o == Outcome([RevParse], [Error(FailurePrefix + git([], RevParse).reason)])
    // dismissed pick or any answer but the confirm button: only the two reads, silently
    ensures git([], RevParse).Ok? && (pick.Dismissed? || answer != Some(ConfirmLabel)) ==>
      o == Outcome(Prelude, [])
    // otherwise the merge flow runs after the two reads and reports once
    ensures git([], RevParse).Ok? && pick.Picked? && answer == Some(ConfirmLabel) ==>
      && |o.notices| == 1
      && (o.notices[0] == Info(SuccessMessage) || StartsWith(o.notices[0].text, FailurePrefix))
  {
    var rev := git([], RevParse);
    if rev.Failed? then Outcome([RevParse], [Error(FailurePrefix + rev.reason)])
    else
      var current := Trim(rev.stdout);
      var branches := Offered(git);
      match pick
      case Dismissed => Outcome(Prelude, [])
      case Picked(i) =>
        if answer != Some(ConfirmLabel) then Outcome(Prelude, [])
        else
          var r := ExecuteMergeFlow(git, Trace(Prelude, None), branches[i], current);
          match r.failure
          case None => Outcome(r.issued, [Info(SuccessMessage)])
          case Some(f) =>
            var text := FailurePrefix + FailureText(f);
            assert text[..|FailurePrefix|] == FailurePrefix;
            Outcome(r.issued, [Error(text)])
  }

  /** Cancelling at the pick or at the confirmation leaves the repository
      untouched: no command issued changes anything, and nothing is shown. */
  lemma CancelIssuesNoMutation(git: Git, pick: Pick, answer: Option<string>)
    requires git([], RevParse).Ok? ==> PickInRange(git, pick)
    requires pick.Dismissed? || answer != Some(ConfirmLabel)
    ensures var o := AutoMerge(git, pick, answer);
      && (forall k | 0 <= k < |o.issued| :: !Mutating(o.issued[k]))
      && (git([], RevParse).Ok? ==> o.notices == [])
  {}

  /** A confirmed run issues, after the two reads, the plan for the picked
      entry against the trimmed current branch up to its first failing step,
      and reports success exactly when all thirteen steps went through. */
  lemma ConfirmedRunFollowsPlan(git: Git, i: nat)
    requires git([], RevParse).Ok? && i < |Offered(git)|
    ensures var o := AutoMerge(git, Picked(i), Some(ConfirmLabel));
      var plan := MergePlan(Offered(git)[i], Trim(git([], RevParse).stdout));
      && o.issued == Prelude + Commands(plan)[..Reached(git, Prelude, plan)]
      && (o.notices == [Info(SuccessMessage)] <==> Completed(git, Prelude, plan) == 13)
  {
    MergeFlowFollowsPlan(git, Prelude, Offered(git)[i], Trim(git([], RevParse).stdout));
  }

  /** Git that accepts every command, reports `current` as the branch and
      `listing` as the branch list, and shows a clean status. */
  function Cooperative(current: string, listing: string): Git {
    (h: seq<Command>, c: Command) =>
      if c == RevParse then Ok(current + "\n")
      else if c == ListBranches then Ok(listing)
      else Ok("")
  }

  lemma CooperativeOffers(b: string)
    requires PlainName(b) && Keep(b) && '\n' !in b
    ensures Offered(Cooperative(b, "* " + b)) == [b]
  {
    CurrentBranchAlone(b);
  }

  /** Every step of any plan goes through on cooperative git. */
  lemma {:induction false} CooperativeCompletes(current: string, listing: string, h: seq<Command>, plan: seq<Step>)
    ensures Completed(Cooperative(current, listing), h, plan) == |plan|
    decreases |plan|
  {
    if |plan| > 0 {
      var git := Cooperative(current, listing);
      assert CheckConflict(Ok("")) == HasConflict("");
      assert StepSucceeds(git, h, plan[0]);
      CooperativeCompletes(current, listing, h + [StepCommand(plan[0])], plan[1..]);
    }
  }

  /** Nothing stops the user from picking the branch they are on: with git
      listing only the current branch, picking it merges it into `dev` and
      `sit` and checks it out again. */
  lemma SelfMergeIsNotRejected(b: string)
    requires PlainName(b) && Keep(b) && '\n' !in b && !IsSpace(b[|b| - 1])
    ensures var git := Cooperative(b, "* " + b);
      && Offered(git) == [b]
      && AutoMerge(git, Picked(0), Some(ConfirmLabel))
         == Outcome(Prelude + Commands(MergePlan(b, b)), [Info(SuccessMessage)])
  {
    var git := Cooperative(b, "* " + b);
    assert Trim(b + "\n") == b by {
      TrimOfFramed("", b, "\n");
      assert "" + b + "\n" == b + "\n";
      assert AllSpace("\n");
    }
    CooperativeOffers(b);
    CooperativeFlowSucceeds(b, "* " + b, b);
  }

  /** On cooperative git the whole flow goes through and issues the plan. */
  lemma CooperativeFlowSucceeds(current: string, listing: string, b: string)
    ensures ExecuteMergeFlow(Cooperative(current, listing), Trace(Prelude, None), b, current)
      == Trace(Prelude + Commands(MergePlan(b, current)), None)
  {
    var git := Cooperative(current, listing);
    CooperativeCompletes(current, listing, Prelude, MergePlan(b, current));
    MergeFlowFollowsPlan(git, Prelude, b, current);
  }
}

=== FILE: Placeholder.dfy ===
/** Placeholder substitution: `content.replace(new RegExp('{templateName}', 'g'), name)`.
    The braces in the pattern are not a valid quantifier, so the regular
    expression matches the 14 characters literally; a global replace scans left
    to right and resumes after each match. The scan is written for any
    non-empty literal pattern and instantiated with `Token`. */
module Placeholder {
  import opened Text

  /** The placeholder the templates carry. */
  const Token: string := "{templateName}"

  function Shift(xs: seq<int>, d: int): (ys: seq<int>)
    ensures |ys| == |xs|
    ensures forall k | 0 <= k < |xs| :: ys[k] == xs[k] + d
  {
    seq(|xs|, k requires 0 <= k < |xs| => xs[k] + d)
  }

  lemma OccursShifted(s: string, p: string, d: int, ms: seq<int>)
    requires 0 <= d <= |s|
    requires forall k | 0 <= k < |ms| :: OccursAt(s[d..], p, ms[k])
    ensures forall k | 0 <= k < |ms| :: OccursAt(s, p, ms[k] + d)
  {
    forall k | 0 <= k < |ms| ensures OccursAt(s, p, ms[k] + d) {
      var m := ms[k];
      assert s[d..][m..m + |p|] == s[m + d..m + d + |p|];
    }
  }

  /** Start positions of the matches a global search for the literal `p` finds,
      in order: the leftmost match first, each later search resuming right after
      the previous match. */
  function Matches(s: string, p: string): (ms: seq<int>)
    requires |p| > 0
    ensures forall k | 0 <= k < |ms| :: OccursAt(s, p, ms[k])
    decreases |s|
  {
    if |s| < |p| then []
    else if StartsWith(s, p) then
      var rest := Matches(s[|p|..], p);
      OccursShifted(s, p, |p|, rest);
      [0] + Shift(rest, |p|)
    else
      var rest := Matches(s[1..], p);
      OccursShifted(s, p, 1, rest);
      Shift(rest, 1)
  }

  /** Consecutive entries at least `gap` apart. */
  predicate Spaced(ms: seq<int>, gap: int) {
    forall k | 0 <= k < |ms| - 1 :: ms[k] + gap <= ms[k + 1]
  }

  /** Each search resumes after the previous match, so matches never overlap. */
  lemma {:induction false} MatchesIncreasing(s: string, p: string)
    requires |p| > 0
    ensures Spaced(Matches(s, p), |p|)
    decreases |s|
  {
    if |s| >= |p| {
      var skip := if StartsWith(s, p) then |p| else 1;
      var rest := Matches(s[skip..], p);
      MatchesIncreasing(s[skip..], p);
      MatchesUnfold(s, p);
      if StartsWith(s, p) {
        assert |rest| > 0 ==> rest[0] >= 0 by {
          if |rest| > 0 {
            assert OccursAt(s[skip..], p, rest[0]);
          }
        }
        SpacedAfterZero(rest, |p|);
      } else {
        SpacedShift(rest, |p|, 1);
      }
    }
  }

  lemma SpacedShift(xs: seq<int>, gap: int, d: int)
    requires Spaced(xs, gap)
    ensures Spaced(Shift(xs, d), gap)
  {
    var ys := Shift(xs, d);
    forall k | 0 <= k < |ys| - 1 ensures ys[k] + gap <= ys[k + 1] {
      assert xs[k] + gap <= xs[k + 1];
    }
  }

  lemma SpacedAfterZero(xs: seq<int>, gap: int)
    requires Spaced(xs, gap) && (|xs| > 0 ==> xs[0] >= 0)
    ensures Spaced([0] + Shift(xs, gap), gap)
  {
    var ys := [0] + Shift(xs, gap);
    forall k | 0 <= k < |ys| - 1 ensures ys[k] + gap <= ys[k + 1] {
      if k > 0 {
        assert ys[k] == xs[k - 1] + gap && ys[k + 1] == xs[k] + gap;
        assert xs[k - 1] + gap <= xs[k];
      }
    }
  }

  /** Every index at which `p` occurs. */
  function Occurrences(s: string, p: string): set<int> {
    set i | 0 <= i <= |s| && OccursAt(s, p, i)
  }

  /** Global replace of the literal `p` by `rep`, taking `rep` literally. */
  function ReplaceAll(s: string, p: string, rep: string): (r: string)
    requires |p| > 0
    ensures !Contains(s, p) ==> r == s
    decreases |s|
  {
    if |s| < |p| then s
    else if StartsWith(s, p) then rep + ReplaceAll(s[|p|..], p, rep)
    else [s[0]] + ReplaceAll(s[1..], p, rep)
  }

  /** Each match trades the pattern's length for the replacement's. */
  lemma {:induction false} ReplaceAllLength(s: string, p: string, rep: string)
    requires |p| > 0
    ensures |ReplaceAll(s, p, rep)| == |s| + |Matches(s, p)| * (|rep| - |p|)
    decreases |s|
  {
    if |s| >= |p| {
      var d := |rep| - |p|;
      var skip := if StartsWith(s, p) then |p| else 1;
      var t := s[skip..];
      var k := |Matches(t, p)|;
      ReplaceAllLength(t, p, rep);
      CountStep(s, p);
      ReplaceStep(s, p, rep);
      if StartsWith(s, p) {
        OneMore(k, d);
      }
    }
  }

  lemma OneMore(k: int, d: int)
    ensures (k + 1) * d == k * d + d
  {}

  /** One step of the search, counted. */
  lemma CountStep(s: string, p: string)
    requires 0 < |p| <= |s|
    ensures StartsWith(s, p) ==> |Matches(s, p)| == |Matches(s[|p|..], p)| + 1
    ensures !StartsWith(s, p) ==> |Matches(s, p)| == |Matches(s[1..], p)|
  {}

  /** One step of the replacement, measured. */
  lemma ReplaceStep(s: string, p: string, rep: string)
    requires 0 < |p| <= |s|
    ensures StartsWith(s, p) ==> |ReplaceAll(s, p, rep)| == |rep| + |ReplaceAll(s[|p|..], p, rep)|
    ensures !StartsWith(s, p) ==> |ReplaceAll(s, p, rep)| == 1 + |ReplaceAll(s[1..], p, rep)|
  {}

  /** The replacement text for one match, as `String.prototype.replace`
      builds it from a replacement string when the pattern has no capture
      groups: `$$` gives `$`, `$&` the match, `` $` `` the text before it, `$'`
      the text after it; any other `$` stands for itself. */
  function Substitute(rep: string, before: string, matched: string, after: string): string
    decreases |rep|
  {
    if |rep| == 0 then ""
    else if rep[0] == '$' && |rep| >= 2 && rep[1] in "$&`'" then
      var expansion :=
        if rep[1] == '$' then "$"
        else if rep[1] == '&' then matched
        else if rep[1] == '`' then before
        else after;
      expansion + Substitute(rep[2..], before, matched, after)
    else [rep[0]] + Substitute(rep[1..], before, matched, after)
  }

  /** A replacement string without `$` is inserted as it is. */
  lemma {:induction false} SubstituteLiteral(rep: string, before: string, matched: string, after: string)
    requires '$' !in rep
    ensures Substitute(rep, before, matched, after) == rep
    decreases |rep|
  {
    if |rep| > 0 {
      assert rep[0] in rep;
      assert forall c | c in rep[1..] :: c in rep;
      SubstituteLiteral(rep[1..], before, matched, after);
      assert rep == [rep[0]] + rep[1..];
    }
  }

  /** The other patterns of a one-pattern replacement: `$$` gives `$`, `` $` ``
      the text before the match, `$'` the text after it, and a `$` before any
      other character stays as it is. */
  lemma SubstitutePatterns(before: string, matched: string, after: string, c: char)
    requires c !in "$&`'"
    ensures Substitute("$$", before, matched, after) == "$"
    ensures Substitute("$`", before, matched, after) == before
    ensures Substitute("$'", before, matched, after) == after
    ensures Substitute(['$', c], before, matched, after) == ['$', c]
  {
    assert "$$"[2..] == [] && "$`"[2..] == [] && "$'"[2..] == [];
    var lone := ['$', c];
    assert lone[1..] == [c] && [c][1..] == [];
    assert Substitute([c], before, matched, after) == [c];
  }

  /** `s.replace(new RegExp(p, 'g'), rep)` from index `i` on, for a pattern
      that matches the text `p` literally. */
  function GlobalReplaceFrom(s: string, p: string, rep: string, i: int): string
    requires |p| > 0 && 0 <= i <= |s|
    decreases |s| - i
  {
    if |s| - i < |p| then s[i..]
    else if OccursAt(s, p, i) then
      Substitute(rep, s[..i], p, s[i + |p|..]) + GlobalReplaceFrom(s, p, rep, i + |p|)
    else [s[i]] + GlobalReplaceFrom(s, p, rep, i + 1)
  }

  /** `s.replace(new RegExp(p, 'g'), rep)`. */
  function GlobalReplace(s: string, p: string, rep: string): (r: string)
    requires |p| > 0
    // with a replacement free of `$`, the host's replace is the literal one
    ensures '$' !in rep ==> r == ReplaceAll(s, p, rep)
  {
    assert '$' !in rep ==> GlobalReplaceFrom(s, p, rep, 0) == ReplaceAll(s, p, rep) by {
      if '$' !in rep {
        GlobalReplaceFromLiteral(s, p, rep, 0);
        assert s[0..] == s;
      }
    }
    GlobalReplaceFrom(s, p, rep, 0)
  }

  /** With a `$`-free replacement, the host's replace is the literal scan. */
  lemma {:induction false} GlobalReplaceFromLiteral(s: string, p: string, rep: string, i: int)
    requires |p| > 0 && 0 <= i <= |s| && '$' !in rep
    ensures GlobalReplaceFrom(s, p, rep, i) == ReplaceAll(s[i..], p, rep)
    decreases |s| - i, 1
  {
    if |s| - i >= |p| {
      if OccursAt(s, p, i) {
        LiteralAtMatch(s, p, rep, i);
      } else {
        LiteralAtNonMatch(s, p, rep, i);
      }
    }
  }

  lemma {:induction false} LiteralAtMatch(s: string, p: string, rep: string, i: int)
    requires |p| > 0 && '$' !in rep && OccursAt(s, p, i)
    ensures GlobalReplaceFrom(s, p, rep, i) == ReplaceAll(s[i..], p, rep)
    decreases |s| - i, 0
  {
    var rest := GlobalReplaceFrom(s, p, rep, i + |p|);
    assert rest == ReplaceAll(s[i + |p|..], p, rep) by {
      GlobalReplaceFromLiteral(s, p, rep, i + |p|);
    }
    var sub := Substitute(rep, s[..i], p, s[i + |p|..]);
    assert sub == rep by {
      SubstituteLiteral(rep, s[..i], p, s[i + |p|..]);
    }
    assert GlobalReplaceFrom(s, p, rep, i) == sub + rest by {
      GlobalReplaceAtMatch(s, p, rep, i);
    }
    assert ReplaceAll(s[i..], p, rep) == rep + ReplaceAll(s[i + |p|..], p, rep) by {
      ReplaceAllAtMatch(s, p, rep, i);
    }
  }

  /** At a match, the host's replace substitutes and resumes after the match. */
  lemma GlobalReplaceAtMatch(s: string, p: string, rep: string, i: int)
    requires |p| > 0 && OccursAt(s, p, i)
    ensures GlobalReplaceFrom(s, p, rep, i)
      == Substitute(rep, s[..i], p, s[i + |p|..]) + GlobalReplaceFrom(s, p, rep, i + |p|)
  {}

  /** At a match, the literal replacement puts `rep` and continues after the match. */
  lemma ReplaceAllAtMatch(s: string, p: string, rep: string, i: int)
    requires |p| > 0 && OccursAt(s, p, i)
    ensures ReplaceAll(s[i..], p, rep) == rep + ReplaceAll(s[i + |p|..], p, rep)
  {
    var t := s[i..];
    assert t[..|p|] == s[i..i + |p|];
    assert t[|p|..] == s[i + |p|..];
  }

  lemma {:induction false} LiteralAtNonMatch(s: string, p: string, rep: string, i: int)
    requires |p| > 0 && '$' !in rep && 0 <= i && i + |p| <= |s| && !OccursAt(s, p, i)
    ensures GlobalReplaceFrom(s, p, rep, i) == ReplaceAll(s[i..], p, rep)
    decreases |s| - i, 0
  {
    var t := s[i..];
    assert !StartsWith(t, p) by {
      assert t[..|p|] == s[i..i + |p|];
    }
    GlobalReplaceFromLiteral(s, p, rep, i + 1);
    assert t[1..] == s[i + 1..];
    assert t[0] == s[i];
  }

  /** With `$&` as the replacement every match is put back unchanged. */
  lemma MatchReferenceKeepsToken()
    ensures GlobalReplace(Token, Token, "$&") == Token
  {
    assert OccursAt(Token, Token, 0);
    assert Token[14..] == "";
    assert "$&"[2..] == "";
  }

  /** `s.split(p)`: the text between consecutive matches. */
  function Pieces(s: string, p: string): (ps: seq<string>)
    requires |p| > 0
    ensures |ps| == |Matches(s, p)| + 1
    ensures StartsWith(s, ps[0])
    ensures forall k | 0 <= k < |ps| :: !Contains(ps[k], p)
    decreases |s|
  {
    if |s| < |p| then
      ContainsIffOccurs(s, p);
      [s]
    else if StartsWith(s, p) then
      [""] + Pieces(s[|p|..], p)
    else
      var rest := Pieces(s[1..], p);
      var first := [s[0]] + rest[0];
      assert first == s[..|first|];
      assert first[1..] == rest[0];
      assert !StartsWith(first, p);
      [first] + rest[1..]
  }

  lemma JoinCons(c: string, ps: seq<string>, sep: string)
    requires |ps| >= 1
    ensures Join([c + ps[0]] + ps[1..], sep) == c + Join(ps, sep)
  {
    var qs := [c + ps[0]] + ps[1..];
    if |ps| > 1 {
      assert qs[1..] == ps[1..];
    }
  }

  lemma {:induction false} JoinLength(ps: seq<string>, sep: string, total: int)
    requires |ps| >= 1
    requires total == SumLengths(ps)
    ensures |Join(ps, sep)| == total + (|ps| - 1) * |sep|
    decreases |ps|
  {
    if |ps| > 1 {
      JoinLength(ps[1..], sep, SumLengths(ps[1..]));
    }
  }

  function SumLengths(ps: seq<string>): nat
    decreases |ps|
  {
    if |ps| == 0 then 0 else |ps[0]| + SumLengths(ps[1..])
  }

  /** The replace is the split-then-join idiom: the text between matches is
      kept, and `rep` goes where each match was. */
  lemma {:induction false} ReplaceIsJoinOfPieces(s: string, p: string, rep: string)
    requires |p| > 0
    ensures ReplaceAll(s, p, rep) == Join(Pieces(s, p), rep)
    decreases |s|
  {
    if |s| < |p| {
    } else if StartsWith(s, p) {
      ReplaceIsJoinOfPieces(s[|p|..], p, rep);
      var ps := Pieces(s[|p|..], p);
      assert ([""] + ps)[1..] == ps;
    } else {
      ReplaceIsJoinOfPieces(s[1..], p, rep);
      JoinCons([s[0]], Pieces(s[1..], p), rep);
    }
  }

  /** Replacing every match by the pattern itself changes nothing. */
  lemma {:induction false} ReplaceByPatternIsIdentity(s: string, p: string)
    requires |p| > 0
    ensures ReplaceAll(s, p, p) == s
    decreases |s|
  {
    if |s| < |p| {
    } else if StartsWith(s, p) {
      ReplaceByPatternIsIdentity(s[|p|..], p);
      assert s == p + s[|p|..];
    } else {
      ReplaceByPatternIsIdentity(s[1..], p);
      assert s == [s[0]] + s[1..];
    }
  }

  /** Splitting at the matches and joining with the pattern gives the text
      back, and no piece still holds the pattern. */
  lemma PiecesRoundTrip(s: string, p: string)
    requires |p| > 0
    ensures Join(Pieces(s, p), p) == s
    ensures forall k | 0 <= k < |Pieces(s, p)| :: !Contains(Pieces(s, p)[k], p)
  {
    ReplaceIsJoinOfPieces(s, p, p);
    ReplaceByPatternIsIdentity(s, p);
  }

  // ----- every occurrence is a match -----

  /** The first character of `p` does not reappear in it, so two occurrences
      of `p` cannot overlap. */
  predicate FirstCharUnique(p: string) {
    |p| > 0 && forall d | 0 < d < |p| :: p[d] != p[0]
  }

  lemma TokenFirstCharUnique()
    ensures FirstCharUnique(Token)
  {}

  lemma {:induction false} EveryOccurrenceIsMatched(s: string, p: string, i: int)
    requires FirstCharUnique(p)
    requires OccursAt(s, p, i)
    ensures i in Matches(s, p)
    decreases |s|, 1
  {
    if StartsWith(s, p) {
      if i != 0 {
        LaterOccurrenceIsMatched(s, p, i);
      }
    } else {
      assert i != 0;
      SkippedOccurrenceIsMatched(s, p, i);
    }
  }

  /** After a match at 0, an occurrence at `i` lies past it and is found by
      the resumed search. */
  lemma {:induction false} LaterOccurrenceIsMatched(s: string, p: string, i: int)
    requires FirstCharUnique(p) && StartsWith(s, p)
    requires OccursAt(s, p, i) && i != 0
    ensures i in Matches(s, p)
    decreases |s|, 0
  {
    NoOverlap(s, p, i);
    var t := s[|p|..];
    assert OccursAt(t, p, i - |p|) by {
      assert t[i - |p|..i] == s[i..i + |p|];
    }
    var rest := Matches(t, p);
    assert i - |p| in rest by {
      EveryOccurrenceIsMatched(t, p, i - |p|);
    }
    InShift([0], rest, |p|, i);
    MatchesUnfold(s, p);
  }

  /** A second occurrence of a pattern whose first character is unique starts
      past the end of the first. */
  lemma NoOverlap(s: string, p: string, i: int)
    requires FirstCharUnique(p) && StartsWith(s, p)
    requires OccursAt(s, p, i) && i != 0
    ensures i >= |p|
  {
    assert s[i..i + |p|][0] == p[0];
  }

  lemma InShift(front: seq<int>, rest: seq<int>, d: int, i: int)
    requires i - d in rest
    ensures i in front + Shift(rest, d)
  {
    var k :| 0 <= k < |rest| && rest[k] == i - d;
    assert (front + Shift(rest, d))[|front| + k] == i;
  }

  lemma {:induction false} SkippedOccurrenceIsMatched(s: string, p: string, i: int)
    requires FirstCharUnique(p) && !StartsWith(s, p)
    requires OccursAt(s, p, i) && i != 0
    ensures i in Matches(s, p)
    decreases |s|, 0
  {
    var t := s[1..];
    assert OccursAt(t, p, i - 1) by {
      assert t[i - 1..i - 1 + |p|] == s[i..i + |p|];
    }
    var rest := Matches(t, p);
    assert i - 1 in rest by {
      EveryOccurrenceIsMatched(t, p, i - 1);
    }
    InShift([], rest, 1, i);
    assert [] + Shift(rest, 1) == Shift(rest, 1);
    MatchesUnfold(s, p);
  }

  /** One step of the search, as a list of positions. */
  lemma MatchesUnfold(s: string, p: string)
    requires 0 < |p| <= |s|
    ensures StartsWith(s, p) ==> Matches(s, p) == [0] + Shift(Matches(s[|p|..], p), |p|)
    ensures !StartsWith(s, p) ==> Matches(s, p) == Shift(Matches(s[1..], p), 1)
  {}

  function Elements(xs: seq<int>): set<int> {
    set k | 0 <= k < |xs| :: xs[k]
  }

  lemma {:induction false} IncreasingCardinality(xs: seq<int>)
    requires forall k | 0 <= k < |xs| - 1 :: xs[k] < xs[k + 1]
    ensures |Elements(xs)| == |xs|
    decreases |xs|
  {
    if |xs| > 0 {
      assert |Elements(xs[1..])| == |xs| - 1 by { IncreasingCardinality(xs[1..]); }
      assert Elements(xs) == {xs[0]} + Elements(xs[1..]);
      assert xs[0] !in Elements(xs[1..]) by {
        forall k | 0 <= k < |xs| - 1 ensures xs[0] < xs[1..][k] {
          IncreasingFrom(xs, 0, k + 1);
        }
      }
    }
  }

  lemma {:induction false} IncreasingFrom(xs: seq<int>, i: int, j: int)
    requires forall k | 0 <= k < |xs| - 1 :: xs[k] < xs[k + 1]
    requires 0 <= i < j < |xs|
    ensures xs[i] < xs[j]
    decreases j - i
  {
    if j > i + 1 {
      IncreasingFrom(xs, i, j - 1);
    }
  }

  /** Since the placeholder cannot overlap itself, the matches of the global
      search are exactly its occurrences. */
  lemma MatchesAreOccurrences(s: string)
    ensures Elements(Matches(s, Token)) == Occurrences(s, Token)
    ensures |Occurrences(s, Token)| == |Matches(s, Token)|
  {
    var ms := Matches(s, Token);
    forall i | i in Occurrences(s, Token) ensures i in Elements(ms) {
      EveryOccurrenceIsMatched(s, Token, i);
    }
    MatchesIncreasing(s, Token);
    IncreasingCardinality(ms);
  }

  /** The length rule: each of the k occurrences trades 14 characters
      for the name. */
  lemma ReplaceLength(s: string, name: string)
    ensures |ReplaceAll(s, Token, name)| == |s| + |Occurrences(s, Token)| * (|name| - |Token|)
  {
    ReplaceAllLength(s, Token, name);
    MatchesAreOccurrences(s);
  }

  // ----- counting matches of the name -----

  lemma {:induction false} CountMonotone(c: string, b: string, p: string)
    requires |p| > 0
    ensures |Matches(c + b, p)| >= |Matches(b, p)|
    decreases |c| + |b|, 2
  {
    var x := c + b;
    if |c| == 0 {
      assert x == b;
    } else if |x| < |p| {
      assert |b| < |p|;
    } else if StartsWith(x, p) {
      CountMonotoneOnMatch(c, b, p);
    } else {
      CountStep(x, p);
      assert x[1..] == c[1..] + b;
      CountMonotone(c[1..], b, p);
    }
  }

  lemma {:induction false} CountMonotoneOnMatch(c: string, b: string, p: string)
    requires |p| > 0 && |c| > 0 && StartsWith(c + b, p)
    ensures |Matches(c + b, p)| >= |Matches(b, p)|
    decreases |c| + |b|, 1
  {
    CountStep(c + b, p);
    if |p| <= |c| {
      LongMatchInPrefix(c, b, p);
    } else {
      MatchReachesSuffix(c, b, p);
    }
  }

  /** The match lies inside `c`: the search resumes within `c`. */
  lemma {:induction false} LongMatchInPrefix(c: string, b: string, p: string)
    requires 0 < |p| <= |c|
    ensures |Matches((c + b)[|p|..], p)| >= |Matches(b, p)|
    decreases |c| + |b|, 0
  {
    assert (c + b)[|p|..] == c[|p|..] + b;
    CountMonotone(c[|p|..], b, p);
  }

  /** The match runs into `b`: the search resumes inside `b`. */
  lemma {:induction false} MatchReachesSuffix(c: string, b: string, p: string)
    requires 0 < |c| < |p| && |p| <= |c| + |b|
    ensures |Matches((c + b)[|p|..], p)| + 1 >= |Matches(b, p)|
    decreases |c| + |b|, 0
  {
    assert (c + b)[|p|..] == b[|p| - |c|..];
    CountSkip(b, |p| - |c|, p);
  }

  lemma {:induction false} CountSkip(b: string, d: int, p: string)
    requires |p| > 0 && 0 <= d <= |p| && d <= |b|
    ensures |Matches(b, p)| <= 1 + |Matches(b[d..], p)|
    decreases |b|, 1
  {
    if d == 0 {
      assert b[d..] == b;
    } else if |b| < |p| {
    } else if StartsWith(b, p) {
      CountSkipOnMatch(b, d, p);
    } else {
      CountStep(b, p);
      assert b[1..][d - 1..] == b[d..];
      CountSkip(b[1..], d - 1, p);
    }
  }

  lemma {:induction false} CountSkipOnMatch(b: string, d: int, p: string)
    requires 0 < d <= |p| && StartsWith(b, p)
    ensures |Matches(b, p)| <= 1 + |Matches(b[d..], p)|
    decreases |b|, 0
  {
    CountStep(b, p);
    assert b[d..] == b[d..|p|] + b[|p|..];
    CountMonotone(b[d..|p|], b[|p|..], p);
  }

  /** Joining n pieces with `rep` makes a global search for `rep` find at least n - 1 matches. */
  lemma {:induction false} JoinedSeparatorCount(ps: seq<string>, rep: string)
    requires |ps| >= 1 && |rep| > 0
    ensures |Matches(Join(ps, rep), rep)| >= |ps| - 1
    decreases |ps|
  {
    if |ps| > 1 {
      var tail := Join(ps[1..], rep);
      JoinedSeparatorCount(ps[1..], rep);
      assert Join(ps, rep) == ps[0] + (rep + tail);
      assert |Matches(rep + tail, rep)| == |Matches(tail, rep)| + 1 by {
        assert (rep + tail)[..|rep|] == rep;
        assert (rep + tail)[|rep|..] == tail;
        CountStep(rep + tail, rep);
      }
      CountMonotone(ps[0], rep + tail, rep);
    }
  }

  // ----- templates whose rendering leaves no placeholder -----

  /** No `{t` and no trailing `{`: no placeholder can start inside this text,
      whatever follows it. */
  predicate Inert(a: string) {
    forall i | 0 <= i < |a| :: a[i] == '{' ==> i + 1 < |a| && a[i + 1] != 't'
  }

  predicate AllInert(ps: seq<string>) {
    forall k | 0 <= k < |ps| :: Inert(ps[k])
  }

  lemma InertConcat(a: string, b: string)
    requires Inert(a) && Inert(b)
    ensures Inert(a + b)
  {
    forall i | 0 <= i < |a + b| && (a + b)[i] == '{'
      ensures i + 1 < |a + b| && (a + b)[i + 1] != 't'
    {
      if i < |a| {
        assert a[i] == '{';
      } else {
        assert b[i - |a|] == '{';
      }
    }
  }

  lemma InertHasNoToken(a: string)
    requires Inert(a)
    ensures !Contains(a, Token)
  {
    forall i | 0 <= i && i + 14 <= |a| ensures !OccursAt(a, Token, i) {
      InertNoTokenAt(a, i);
    }
    ContainsIffOccurs(a, Token);
  }

  lemma InertNoTokenAt(x: string, i: int)
    requires 0 <= i && i + 14 <= |x|
    requires x[i] == '{' ==> x[i + 1] != 't'
    ensures x[i..i + 14] != Token
  {
    if x[i] == '{' {
      assert x[i..i + 14][1] != Token[1];
    } else {
      assert x[i..i + 14][0] != Token[0];
    }
  }

  lemma {:induction false} ReplaceAfterInert(a: string, b: string, rep: string)
    requires Inert(a)
    ensures ReplaceAll(a + b, Token, rep) == a + ReplaceAll(b, Token, rep)
    decreases |a|
  {
    var x := a + b;
    if |a| == 0 {
      assert x == b;
    } else if |x| >= 14 {
      InertTail(a);
      assert ReplaceAll(x, Token, rep) == [a[0]] + ReplaceAll(x[1..], Token, rep) by {
        InertHeadSkipped(a, b, rep);
      }
      assert ReplaceAll(x[1..], Token, rep) == a[1..] + ReplaceAll(b, Token, rep) by {
        assert x[1..] == a[1..] + b;
        ReplaceAfterInert(a[1..], b, rep);
      }
      assert a == [a[0]] + a[1..];
    }
  }

  /** No placeholder starts at the front of an inert text, so the replace
      copies its first character. */
  lemma InertHeadSkipped(a: string, b: string, rep: string)
    requires |a| > 0 && |a + b| >= 14
    requires a[0] == '{' ==> |a| > 1 && a[1] != 't'
    ensures ReplaceAll(a + b, Token, rep) == [a[0]] + ReplaceAll((a + b)[1..], Token, rep)
  {
    var x := a + b;
    assert !StartsWith(x, Token) by {
      assert x[0] == a[0];
      assert a[0] == '{' ==> x[1] == a[1];
      InertNoTokenAt(x, 0);
    }
  }

  /** The first character of an inert text does not start a placeholder, and
      the rest is inert too. */
  lemma InertTail(a: string)
    requires Inert(a) && |a| > 0
    ensures Inert(a[1..])
    ensures a[0] == '{' ==> |a| > 1 && a[1] != 't'
  {
    forall i | 0 <= i < |a| - 1 && a[1..][i] == '{'
      ensures i + 1 < |a| - 1 && a[1..][i + 1] != 't'
    {
      assert a[i + 1] == '{';
    }
  }

  /** Rendering a template made of inert pieces separated by placeholders puts
      the name exactly where the placeholders were. */
  lemma {:induction false} RenderInertPieces(ps: seq<string>, rep: string)
    requires |ps| >= 1
    requires AllInert(ps)
    ensures ReplaceAll(Join(ps, Token), Token, rep) == Join(ps, rep)
    decreases |ps|
  {
    if |ps| == 1 {
      InertHasNoToken(ps[0]);
    } else {
      var tail := Join(ps[1..], Token);
      RenderInertPieces(ps[1..], rep);
      assert Join(ps, Token) == ps[0] + (Token + tail);
      ReplaceAfterInert(ps[0], Token + tail, rep);
      assert StartsWith(Token + tail, Token);
      assert (Token + tail)[14..] == tail;
    }
  }

  lemma {:induction false} JoinInert(ps: seq<string>, sep: string)
    requires |ps| >= 1 && Inert(sep)
    requires AllInert(ps)
    ensures Inert(Join(ps, sep))
    decreases |ps|
  {
    if |ps| > 1 {
      JoinInert(ps[1..], sep);
      InertConcat(ps[0], sep);
      InertConcat(ps[0] + sep, Join(ps[1..], sep));
    }
  }

  /** template/jsx/index.jsx, as the text between its five placeholders. Each
      literal is kept short so that facts about its characters are decided
      one piece at a time. */
  const JsxPieces: seq<string> := [
    ImportReact + ImportReactRest + ImportStyle + ImportClassNames + "const ",
    ForwardRefOpen + HandleLine + ReturnLine + DivOpen,
    "])}>\n     \n    </div>\n  );\n});\n",
    ".displayName = '",
    "';\n\nexport default ",
    ";"
  ]

  const ImportReact: string := "import React, { useImperativeHandle, "
  const ImportReactRest: string := "forwardRef } from 'react';\n"
  const ImportStyle: string := "import Style from './index.module.less'\n"
  const ImportClassNames: string := "import classNames from 'classnames';\n"
  const ForwardRefOpen: string := " = forwardRef((props,ref) => {\n \n"
  const HandleLine: string := " useImperativeHandle(ref, () => ({ }));\n"
  const ReturnLine: string := "  return (\n"
  const DivOpen: string := "    <div className={classNames([Style."

  const JsxTemplate: string := Join(JsxPieces, Token)

  lemma JsxPiecesInert()
    ensures |JsxPieces| == 6
    ensures AllInert(JsxPieces)
  {
    JsxPiece0Inert();
    JsxPiece1Inert();
    JsxShortPiecesInert();
  }

  lemma JsxPiece0Inert()
    ensures Inert(JsxPieces[0])
  {
    ImportsInert();
    ImportsRestInert();
    InertConcat(ImportReact, ImportReactRest);
    InertConcat(ImportReact + ImportReactRest, ImportStyle);
    InertConcat(ImportReact + ImportReactRest + ImportStyle, ImportClassNames);
    InertConcat(ImportReact + ImportReactRest + ImportStyle + ImportClassNames, "const ");
  }

  lemma ImportsInert()
    ensures Inert(ImportReact) && Inert(ImportReactRest)
  {}

  lemma ImportsRestInert()
    ensures Inert(ImportStyle) && Inert(ImportClassNames) && Inert("const ")
  {}

  lemma JsxPiece1Inert()
    ensures Inert(JsxPieces[1])
  {
    ComponentOpenInert();
    ComponentBodyInert();
    InertConcat(ForwardRefOpen, HandleLine);
    InertConcat(ForwardRefOpen + HandleLine, ReturnLine);
    InertConcat(ForwardRefOpen + HandleLine + ReturnLine, DivOpen);
  }

  lemma ComponentOpenInert()
    ensures Inert(ForwardRefOpen) && Inert(HandleLine)
  {}

  lemma ComponentBodyInert()
    ensures Inert(ReturnLine) && Inert(DivOpen)
  {}

  lemma JsxShortPiecesInert()
    ensures Inert(JsxPieces[2]) && Inert(JsxPieces[3]) && Inert(JsxPieces[4]) && Inert(JsxPieces[5])
  {
    assert Inert("])}>\n     \n    </div>\n  );\n});\n");
    assert Inert(".displayName = '");
    assert Inert("';\n\nexport default ");
    assert Inert(";");
  }

  /** The shipped template holds the placeholder exactly five times. */
  lemma JsxTemplateTokenCount()
    ensures |Occurrences(JsxTemplate, Token)| == 5
  {
    JsxPiecesInert();
    InertPiecesTokenCount(JsxPieces);
  }

  /** Inert pieces joined by the placeholder hold it once per join. */
  lemma InertPiecesTokenCount(ps: seq<string>)
    requires |ps| >= 1
    requires AllInert(ps)
    ensures |Occurrences(Join(ps, Token), Token)| == |ps| - 1
  {
    var template := Join(ps, Token);
    // rendering with "" removes 14 characters per occurrence
    RenderedWithNothing(ps);
    JoinedLength(ps);
    StrippedLength(template);
    Cancel(|ReplaceAll(template, Token, "")|, |template|, SumLengths(ps), |ps| - 1,
           |Occurrences(template, Token)|);
  }

  lemma RenderedWithNothing(ps: seq<string>)
    requires |ps| >= 1
    requires AllInert(ps)
    ensures |ReplaceAll(Join(ps, Token), Token, "")| == SumLengths(ps)
  {
    RenderInertPieces(ps, "");
    JoinLength(ps, "", SumLengths(ps));
    TimesZero(|ps| - 1, |""|);
  }

  lemma StrippedLength(s: string)
    ensures |ReplaceAll(s, Token, "")| == |s| + |Occurrences(s, Token)| * (0 - 14)
  {
    ReplaceLength(s, "");
    SameProduct(|Occurrences(s, Token)|, |""| - |Token|, 0 - 14);
  }

  lemma SameProduct(a: int, x: int, y: int)
    requires x == y
    ensures a * x == a * y
  {}

  lemma JoinedLength(ps: seq<string>)
    requires |ps| >= 1
    ensures |Join(ps, Token)| == SumLengths(ps) + (|ps| - 1) * 14
  {
    JoinLength(ps, Token, SumLengths(ps));
  }

  lemma TimesZero(a: int, x: int)
    requires x == 0
    ensures a * x == 0
  {}

  lemma Cancel(rendered: int, joined: int, total: int, m: int, n: int)
    requires rendered == total && joined == total + m * 14
    requires rendered == joined + n * (0 - 14)
    ensures n == m
  {}

  /** Rendering the shipped template with a name free of `{`: the name sits at
      the five placeholder sites, no placeholder is left, and a global search
      for a non-empty name finds it at least five times. */
  lemma RenderJsxTemplate(name: string)
    requires '{' !in name
    ensures ReplaceAll(JsxTemplate, Token, name) == Join(JsxPieces, name)
    ensures !Contains(ReplaceAll(JsxTemplate, Token, name), Token)
    ensures |name| > 0 ==> |Matches(ReplaceAll(JsxTemplate, Token, name), name)| >= 5
  {
    JsxPiecesInert();
    RenderInertPieces(JsxPieces, name);
    assert Inert(name);
    JoinInert(JsxPieces, name);
    InertHasNoToken(Join(JsxPieces, name));
    if |name| > 0 {
      JoinedSeparatorCount(JsxPieces, name);
    }
  }

  /** The style template the test suite uses (src/test/testUtils.ts). */
  const CssTestTemplate: string := ".{templateName}{\n  \n}"

  /** Rendering it puts the name after the dot and leaves the rule body alone. */
  lemma RenderCssTestTemplate(name: string)
    requires '{' !in name
    ensures ReplaceAll(CssTestTemplate, Token, name) == "." + name + "{\n  \n}"
    ensures !Contains(ReplaceAll(CssTestTemplate, Token, name), Token)
  {
    var ps := [".", "{\n  \n}"];
    assert Join(ps, Token) == CssTestTemplate by {
      assert ps[1..] == ["{\n  \n}"];
    }
    assert Join(ps, name) == "." + name + "{\n  \n}" by {
      assert ps[1..] == ["{\n  \n}"];
    }
    assert AllInert(ps) by {
      assert Inert(ps[1]) by { assert ps[1][1] == '\n'; }
    }
    RenderInertPieces(ps, name);
    assert Inert(name);
    JoinInert(ps, name);
    InertHasNoToken(Join(ps, name));
  }
}

=== FILE: Text.dfy ===
/** String primitives the extension borrows from JavaScript: character classes,
    `String.prototype.trim`, `includes`, `split` on one separator character,
    and `join`. Strings are sequences of UTF-16 code units in JavaScript and of
    characters here; the difference only shows outside the Basic Multilingual
    Plane, which nothing below depends on. */
module Text {

  /** The ECMAScript WhiteSpace and LineTerminator code points: exactly what
      `trim` removes and what the regular-expression class `\s` matches. */
  predicate IsSpace(c: char) {
    || c == '\t' || c == '\n' || c == '\U{000B}' || c == '\U{000C}' || c == '\r'
    || c == ' ' || c == '\U{00A0}' || c == '\U{1680}'
    || ('\U{2000}' <= c <= '\U{200A}')
    || c == '\U{2028}' || c == '\U{2029}' || c == '\U{202F}' || c == '\U{205F}'
    || c == '\U{3000}' || c == '\U{FEFF}'
  }

  predicate IsAsciiLower(c: char) { 'a' <= c <= 'z' }

  predicate IsAsciiUpper(c: char) { 'A' <= c <= 'Z' }

  predicate IsAsciiLetter(c: char) { IsAsciiLower(c) || IsAsciiUpper(c) }

  predicate IsAsciiDigit(c: char) { '0' <= c <= '9' }

  /** Every character of `s` is white space (vacuously so for ""). */
  predicate AllSpace(s: string) {
    forall i | 0 <= i < |s| :: IsSpace(s[i])
  }

  /** `toUpperCase` on one character, restricted to the ASCII letters. */
  function ToUpper(c: char): (u: char)
    ensures IsAsciiLower(c) ==> IsAsciiUpper(u) && u as int == c as int - 32
    ensures !IsAsciiLower(c) ==> u == c
  {
    if IsAsciiLower(c) then (c as int - 32) as char else c
  }

  lemma ToUpperIdempotent(c: char)
    ensures ToUpper(ToUpper(c)) == ToUpper(c)
  {}

  // ----- trim -----

  /** Drops the longest white-space prefix. */
  function TrimStart(s: string): (r: string)
    ensures |r| <= |s| && r == s[|s| - |r|..]
    ensures AllSpace(s[..|s| - |r|])
    ensures r == [] || !IsSpace(r[0])
    decreases |s|
  {
    if |s| > 0 && IsSpace(s[0]) then
      var r := TrimStart(s[1..]);
      var d := |s| - |r|;
      assert s[1..][d - 1..] == s[d..];
      assert AllSpace(s[..d]) by {
        forall i | 0 <= i < d ensures IsSpace(s[..d][i]) {
          if i > 0 {
            assert s[..d][i] == s[1..][..d - 1][i - 1];
          }
        }
      }
      r
    else s
  }

  /** Drops the longest white-space suffix. */
  function TrimEnd(s: string): (r: string)
    ensures |r| <= |s| && r == s[..|r|]
    ensures AllSpace(s[|r|..])
    ensures r == [] || !IsSpace(r[|r| - 1])
    decreases |s|
  {
    if |s| > 0 && IsSpace(s[|s| - 1]) then
      var r := TrimEnd(s[..|s| - 1]);
      assert s[..|s| - 1][..|r|] == s[..|r|];
      assert AllSpace(s[|r|..]) by {
        forall i | 0 <= i < |s| - |r| ensures IsSpace(s[|r|..][i]) {
          if i < |s| - 1 - |r| {
            assert s[|r|..][i] == s[..|s| - 1][|r|..][i];
          }
        }
      }
      r
    else s
  }

  /** `s` consists of white space, then `r`, then white space, with `r` starting at `k`. */
  predicate SpaceFramed(s: string, k: int, r: string) {
    && 0 <= k && k + |r| <= |s|
    && s[k..k + |r|] == r
    && AllSpace(s[..k])
    && AllSpace(s[k + |r|..])
  }

  /** `String.prototype.trim`. */
  function Trim(s: string): (r: string)
    ensures SpaceFramed(s, |s| - |TrimStart(s)|, r)
    ensures r != [] ==> !IsSpace(r[0]) && !IsSpace(r[|r| - 1])
  {
    FramedByTrims(s, |s| - |TrimStart(s)|, TrimStart(s), TrimEnd(TrimStart(s)));
    TrimEnd(TrimStart(s))
  }

  /** Cutting white space off the front and then off the back frames what is left. */
  lemma FramedByTrims(s: string, k: int, t: string, r: string)
    requires 0 <= k <= |s| && t == s[k..] && AllSpace(s[..k])
    requires |r| <= |t| && r == t[..|r|] && AllSpace(t[|r|..])
    requires t == [] || !IsSpace(t[0])
    requires r == [] || !IsSpace(r[|r| - 1])
    ensures SpaceFramed(s, k, r)
    ensures r != [] ==> !IsSpace(r[0]) && !IsSpace(r[|r| - 1])
  {
    assert s[k..][..|r|] == s[k..k + |r|];
    assert s[k + |r|..] == t[|r|..];
    if r != [] {
      assert r[0] == t[0];
    }
  }

  /** Only blank text trims to "". */
  lemma TrimEmptyIffBlank(s: string)
    ensures Trim(s) == [] <==> AllSpace(s)
  {
    var k := |s| - |TrimStart(s)|;
    var r := Trim(s);
    if r == [] {
      forall i | 0 <= i < |s| ensures IsSpace(s[i]) {
        if i < k {
          assert s[..k][i] == s[i];
        } else {
          assert s[k..][i - k] == s[i];
        }
      }
    } else {
      assert s[k..k + |r|][0] == s[k];
    }
  }

  /** White space in front of a word is exactly what `TrimStart` drops. */
  lemma {:induction false} TrimStartAfterSpace(w: string, b: string)
    requires AllSpace(w) && |b| > 0 && !IsSpace(b[0])
    ensures TrimStart(w + b) == b
    decreases |w|
  {
    if |w| == 0 {
      assert w + b == b;
    } else {
      assert (w + b)[0] == w[0];
      assert (w + b)[1..] == w[1..] + b;
      TrimStartAfterSpace(w[1..], b);
    }
  }

  /** White space behind a word is exactly what `TrimEnd` drops. */
  lemma {:induction false} TrimEndBeforeSpace(b: string, w: string)
    requires AllSpace(w) && |b| > 0 && !IsSpace(b[|b| - 1])
    ensures TrimEnd(b + w) == b
    decreases |w|
  {
    if |w| == 0 {
      assert b + w == b;
    } else {
      var x := b + w;
      assert x[|x| - 1] == w[|w| - 1];
      assert x[..|x| - 1] == b + w[..|w| - 1];
      TrimEndBeforeSpace(b, w[..|w| - 1]);
    }
  }

  /** Trimming white space, a word and white space gives back the word. */
  lemma TrimOfFramed(a: string, b: string, c: string)
    requires AllSpace(a) && AllSpace(c)
    requires b != [] ==> !IsSpace(b[0]) && !IsSpace(b[|b| - 1])
    ensures Trim(a + b + c) == b
  {
    var s := a + b + c;
    if b == [] {
      assert AllSpace(s) by {
        forall i | 0 <= i < |s| ensures IsSpace(s[i]) {
          if i < |a| { assert s[i] == a[i]; } else { assert s[i] == c[i - |a|]; }
        }
      }
      TrimEmptyIffBlank(s);
    } else {
      assert s == a + (b + c);
      assert (b + c)[0] == b[0];
      TrimStartAfterSpace(a, b + c);
      TrimEndBeforeSpace(b, c);
    }
  }

  // ----- substrings -----

  predicate StartsWith(s: string, p: string) {
    |p| <= |s| && s[..|p|] == p
  }

  /** `p` occurs in `s` at index `i`. */
  predicate OccursAt(s: string, p: string, i: int) {
    0 <= i && i + |p| <= |s| && s[i..i + |p|] == p
  }

  /** `String.prototype.includes`, by a left-to-right scan. */
  predicate Contains(s: string, p: string)
    decreases |s|
  {
    StartsWith(s, p) || (|s| > 0 && Contains(s[1..], p))
  }

  /** The scan finds `p` exactly when `p` occurs somewhere in `s`. */
  lemma {:induction false} ContainsIffOccurs(s: string, p: string)
    ensures Contains(s, p) <==> exists i :: OccursAt(s, p, i)
    decreases |s|
  {
    if StartsWith(s, p) {
      assert OccursAt(s, p, 0);
    } else if |s| > 0 {
      ContainsIffOccurs(s[1..], p);
      if Contains(s[1..], p) {
        var i :| OccursAt(s[1..], p, i);
        assert s[1..][i..i + |p|] == s[i + 1..i + 1 + |p|];
        assert OccursAt(s, p, i + 1);
      }
      if i :| OccursAt(s, p, i) {
        assert i != 0;
        assert s[1..][i - 1..i - 1 + |p|] == s[i..i + |p|];
        assert OccursAt(s[1..], p, i - 1);
      }
    }
  }

  /** Appending text on either side never hides an occurrence. */
  lemma ContainsMonotone(u: string, s: string, w: string, p: string)
    requires Contains(s, p)
    ensures Contains(u + s + w, p)
  {
    ContainsIffOccurs(s, p);
    var i :| OccursAt(s, p, i);
    assert (u + s + w)[|u| + i..|u| + i + |p|] == s[i..i + |p|];
    assert OccursAt(u + s + w, p, |u| + i);
    ContainsIffOccurs(u + s + w, p);
  }

  // ----- split on one character, join -----

  /** `s.split(sep)` for a one-character separator: "" gives [""], and a
      trailing separator gives a trailing empty part. */
  function Split(s: string, sep: char): (parts: seq<string>)
    ensures |parts| >= 1
    ensures forall i | 0 <= i < |parts| :: sep !in parts[i]
    decreases |s|
  {
    if |s| == 0 then [""]
    else
      var rest := Split(s[1..], sep);
      if s[0] == sep then [""] + rest
      else [[s[0]] + rest[0]] + rest[1..]
  }

  /** `parts.join(sep)`. */
  function Join(parts: seq<string>, sep: string): string
    requires |parts| >= 1
    decreases |parts|
  {
    if |parts| == 1 then parts[0] else parts[0] + sep + Join(parts[1..], sep)
  }

  /** Joining the parts restores the text. */
  lemma {:induction false} JoinSplit(s: string, sep: char)
    ensures Join(Split(s, sep), [sep]) == s
    decreases |s|
  {
    if |s| > 0 {
      var rest := Split(s[1..], sep);
      JoinSplit(s[1..], sep);
      if s[0] == sep {
        assert Split(s, sep)[1..] == rest;
      } else {
        var parts := Split(s, sep);
        if |rest| == 1 {
          assert parts == [[s[0]] + rest[0]];
        } else {
          assert parts[1..] == rest[1..];
          assert Join(parts, [sep]) == [s[0]] + rest[0] + [sep] + Join(rest[1..], [sep]);
        }
      }
    }
  }

  /** A text without the separator splits into itself. */
  lemma SplitWithoutSeparator(w: string, sep: char)
    requires sep !in w
    ensures Split(w, sep) == [w]
  {
    SplitPrefix(w, "", sep);
    assert w + "" == w;
  }

  lemma {:induction false} SplitPrefix(w: string, t: string, sep: char)
    requires sep !in w
    ensures Split(w + t, sep) == [w + Split(t, sep)[0]] + Split(t, sep)[1..]
    decreases |w|
  {
    if |w| > 0 {
      var parts := Split(t, sep);
      var rest := Split(w[1..] + t, sep);
      assert rest == [w[1..] + parts[0]] + parts[1..] by {
        assert forall c | c in w[1..] :: c in w;
        SplitPrefix(w[1..], t, sep);
      }
      SplitCons(w[0], w[1..] + t, sep);
      assert w + t == [w[0]] + (w[1..] + t);
      assert [w[0]] + (w[1..] + parts[0]) == w + parts[0];
    } else {
      var parts := Split(t, sep);
      assert w + t == t;
      assert w + parts[0] == parts[0];
      assert parts == [parts[0]] + parts[1..];
    }
  }

  /** A non-separator in front joins the first part. */
  lemma SplitCons(c: char, s: string, sep: char)
    requires c != sep
    ensures Split([c] + s, sep) == [[c] + Split(s, sep)[0]] + Split(s, sep)[1..]
  {
    assert ([c] + s)[1..] == s;
  }

  /** Splitting a join of separator-free parts gives the parts back. */
  lemma {:induction false} SplitJoin(parts: seq<string>, sep: char)
    requires |parts| >= 1
    requires forall i | 0 <= i < |parts| :: sep !in parts[i]
    ensures Split(Join(parts, [sep]), sep) == parts
    decreases |parts|
  {
    if |parts| == 1 {
      SplitPrefix(parts[0], "", sep);
      assert parts[0] + "" == parts[0];
    } else {
      var tail := Join(parts[1..], [sep]);
      SplitJoin(parts[1..], sep);
      assert ([sep] + tail)[1..] == tail;
      assert Split([sep] + tail, sep) == [""] + parts[1..];
      SplitPrefix(parts[0], [sep] + tail, sep);
      assert parts[0] + [sep] + tail == parts[0] + ([sep] + tail);
      assert parts[0] + "" == parts[0];
    }
  }
}
